=== FILE: README.md ===
# A verified model of the Reddit-clone core

This project models, in Dafny, the parts of the Flask Reddit clone that hold statable
rules, and proves properties of them:

- **Votes** (`ledger.dfy`, `votes.dfy`). These are the four vote routes of `posts/views.py`.
  - The vote table is a sequence of `(voter, target, kind)` rows. The route looks a row up
    with `filter_by(...).first()`.
  - Each request creates, flips or deletes that row. It moves the target's `upvotes` and
    `downvotes` counters and its author's `karma`.
  - The model follows the table the code has. A retraction (pressing the same button
    twice) deletes the row and lowers the counter, but leaves karma alone. So karma is not
    the author's net score.
  - The central invariant is "offset preserved". Every request moves each counter by
    exactly the change in the number of ledger rows of its kind. So the offset between a
    counter and its ledger count never changes. The seeding script writes counters with no
    rows, so "counter equals ledger count" is not an invariant.
  - The unique constraint on `(user, post)` and `(user, comment)` is an invariant that
    every request keeps.
- **User relations** (`accounts.dfy`). Follow, community membership, blocking and saved
  posts are idempotent add and remove operations on sets of ids.
- **Posts and comments** (`posts.dfy`). This covers:
  - the author-or-admin guard of edit and delete, and soft delete;
  - the moderator-or-admin pin toggle;
  - `comment_count` bookkeeping;
  - `get_preview_text`, `increment_views` and `get_net_votes`.
- **Communities** (`communities.dfy`). Create, join, leave and the moderator-or-admin
  edit guard. `member_count` drifts from the real membership, because join and leave
  always move it by one.
- **Listings** (`ranking.dfy`, `feeds.dfy`). The community page and the JSON listing both
  work the same way:
  - they drop soft-deleted posts;
  - they order by creation time (`new`), upvotes (`top`) or net votes (anything else),
    descending;
  - they cut a page of 20.
  - SQL fixes no order among equal keys. So a ranking is specified as any descending
    permutation of the filtered posts, and all such rankings agree on every position's
    key. The home feed orders differently, as described below.
- **`timesince`** (`timesince.dfy`). The bucketing of an elapsed time, normalised like
  Python's `timedelta`.
- **Database URL selection** (`config.py`, modelled in `config.dfy`). This is the
  `postgres://` to `postgresql://` rewrite, the SQLite fallback and the per-configuration
  URL.

`common.dfy` holds `Option`, `Result` and the id types. Timestamps, the current time,
the environment variable and the `author`/`subreddit` name lookups are parameters.

Two behaviours of the code shape the model:

- **Karma on retraction.** A retraction deletes the row and lowers the counter but
  leaves karma alone (`posts/views.py:164-166` and `191-193`). So karma is not the
  author's net score. `Votes.RetractionKeepsKarmaScenario` shows this on a concrete
  sequence of presses.
- **The home feed.** `sort=top` on the home feed orders by `Post.score`, which the
  `Post` model does not define, so that query fails. Its `hot` is newest-first, not by
  net votes. `Feeds.HomeOrder` records this.

Every write to a post row also stamps its `updated_at` (`onupdate`, models.py:272), so
the post operations take the time of the request as `now`.

`Votes.Votable` is the vote routes' view of a post or a comment: its two counters and
its author, and nothing else. `Posts.Post` and `Posts.Comment` are the full records that
the other routes edit. The two views are kept apart because a vote touches only those
three fields. `Votes.NetVotes` and `Posts.PostNetVotes` are the same `get_net_votes`
read through each view. Likewise `VoteDb.karma` is the vote routes' view of the `karma`
column; `Accounts.User.karma` is the same column as the user record carries it, and no
operation of `Accounts` or `Communities` changes it.

## Model

| member | source | states |
|---|---|---|
| Ledger.FindVote | posts/views.py:161-163 | The lookup finds the first row of the voter on the target, if there is one; none exactly when no row matches |
| Ledger.CountRemove | posts/views.py:163-166 | Deleting a row lowers the count of its own kind on its own target by one, and no other count |
| Ledger.CountRetype | posts/views.py:167-171 | Changing a row's kind moves it from one kind's count to the other's on its target, and changes no other count |
| Ledger.CountAppend | posts/views.py:172-175 | Adding a row raises the count of its kind on its target by one, and no other count |
| Ledger.UniqueRemove | models.py:345 | Deleting a row keeps at most one row per (voter, target) |
| Ledger.UniqueRetype | models.py:345 | Changing a row's kind keeps at most one row per (voter, target) |
| Ledger.UniqueAppend | models.py:356 | Adding a row for a pair that has none keeps at most one row per (voter, target) |
| Ledger.StateAfterRemove | posts/views.py:163-166 | After the voter's row is deleted, the voter has no vote on the target; every other pair keeps its state |
| Ledger.StateAfterRetype | posts/views.py:167-171 | After the found row is retyped, the voter's state is the new kind; every other pair keeps its state |
| Ledger.StateAfterAppend | posts/views.py:172-174 | After a row is added for a pair with no vote, that pair's state is the row's kind; every other pair keeps its state |
| Votes.Transition | posts/views.py:163-203 | Each cell of the table: the same button retracts and any other press sets that kind; each counter moves by the change in rows of its kind; karma moves by the button's sign for a new vote, by twice it for a switch, and not at all for a retraction |
| Votes.Vote | posts/views.py:159-207 | A missing target is refused; otherwise only the target's counters move (by the table's deltas for the state found) and only the target author's karma moves |
| Votes.VotePost | posts/views.py:156-207 | A post vote is refused only for a missing post and moves no other post's or any comment's counters |
| Votes.VoteComment | posts/views.py:250-299 | A comment vote follows the same table, is refused only for a missing comment, and moves no other comment's or any post's counters |
| Votes.LedgerMovesWithTable | posts/views.py:163-176 | The target's up and down row counts move exactly as the table's ledger states say |
| Votes.LedgerElsewhereUnchanged | posts/views.py:161-176 | The row counts of every other target do not change |
| Votes.VotePreservesOffsets | posts/views.py:161-203 | Every counter of every target keeps its offset from its ledger count, and no target appears or disappears |
| Votes.VoteKeepsUnique | models.py:337-356 | After any request there is still at most one row per (voter, target) |
| Votes.VoteNextState | posts/views.py:163-203 | Under the unique constraint, the voter's state becomes the table's next state, and every other (voter, target) pair keeps its state |
| Votes.KarmaFollowsNetVotesExceptRetraction | posts/views.py:163-176 | A new vote or a switch moves karma exactly as much as the target's net votes (`Votes.NetVotes`, the `get_net_votes` of models.py:280-282 and 329-331: upvotes minus downvotes); a retraction moves the net votes by one against the button and leaves karma unchanged |
| Votes.Replay | posts/views.py:156-207 | Over any sequence of requests (a request on a missing target is skipped), the set of targets stays the same and every target's author stays in the user table |
| Votes.ReplayPreservesInvariants | posts/views.py:156-207 | Over any sequence of requests, the unique constraint holds and every counter keeps its offset from the ledger |
| Votes.CountersStayNonNegative | init_db.py:118-119 | A counter that starts at or above its ledger count, as seeded counters with no rows do, never goes negative |
| Votes.PressTwice | posts/views.py:163-176 | Pressing a button twice from no vote or from the same vote restores the counters and shifts karma by the button's sign (from no vote the rows are restored too); from the opposite vote it ends with no vote, the opposite counter one lower and karma two steps away |
| Votes.TwoPresses | posts/views.py:163-203 | Two presses compose two cells of the table: the counter and karma deltas add up, and the voter ends in the second cell's state |
| Votes.OnePress | posts/views.py:159-207 | One press keeps the unique constraint and known authors, moves the target's counters and its author's karma by exactly the table's cell, and leaves the voter in that cell's next state |
| Votes.TwoCells | posts/views.py:163-203 | Two presses of one button: from no vote or the same vote the counters come back and karma moves by the button's sign; from the opposite vote the voter ends with no vote, the opposite counter one lower and karma two signs away |
| Votes.PressTwiceFromNoVote | posts/views.py:164-176 | From no vote, the second press deletes exactly the row the first one added |
| Votes.RetractionKeepsKarmaScenario | posts/views.py:186-203 | On a fresh post, upvote, downvote, downvote leaves counters (0, 0) and no rows but karma at -1 |
| Accounts.Follow | models.py:119-131 | Afterwards `Accounts.IsFollowing` (`is_following`) holds for the other user; no other follow or relation changes; already following is a no-op |
| Accounts.Unfollow | models.py:124-131 | Afterwards `Accounts.IsFollowing` is false for the other user; no other follow or relation changes; not following is a no-op |
| Accounts.JoinCommunity | models.py:133-145 | Afterwards `Accounts.IsInCommunity` (`is_in_community`) holds; no other membership or relation changes; already a member is a no-op |
| Accounts.LeaveCommunity | models.py:138-145 | Afterwards `Accounts.IsInCommunity` is false; no other membership or relation changes; a non-member is a no-op |
| Accounts.BlockUser | models.py:147-159 | Afterwards `Accounts.IsBlocking` (`is_blocking`) holds for the other user; nothing else changes; already blocking is a no-op |
| Accounts.UnblockUser | models.py:152-159 | Afterwards `Accounts.IsBlocking` is false for the other user; nothing else changes; not blocking is a no-op |
| Accounts.SavePost | models.py:161-175 | Afterwards `Accounts.IsPostSaved` (`is_post_saved`) holds; nothing else changes; already saved is a no-op |
| Accounts.UnsavePost | models.py:167-175 | Afterwards `Accounts.IsPostSaved` is false; nothing else changes; not saved is a no-op |
| Accounts.AddRemoveRoundTrip | models.py:119-175 | For each relation, adding an absent entry and removing it gives the user back, and removing a present entry and adding it gives the user back |
| Posts.PrefixSlice | models.py:287 | Python's `s[:n]`: the first n characters, the whole string for a long n, and all but the last -n for a negative n |
| Posts.PreviewText | models.py:284-288 | Empty content gives the empty string; content that fits is unchanged; for a non-negative `length`, longer content is its first `length` characters followed by "...", never more than `length` + 3 characters; for a negative `length`, non-empty content is Python's `content[:length]` (all but its last `-length` characters) followed by "..." |
| Posts.PreviewIsPrefix | models.py:284-288 | A preview starts with the content's first `length` characters and ends with "..." exactly when the content was cut |
| Posts.DefaultPreview | models.py:284-288 | With the default length, content of at most 150 characters is shown whole; longer content is its first 150 characters followed by "...", 153 characters in all |
| Posts.IncrementViews | models.py:290-293 | The view counter goes up by exactly one, `updated_at` takes the time of the write (the `onupdate` of models.py:272), and nothing else changes |
| Posts.EditPost | posts/views.py:68-78 | Only the author or an admin (`Posts.CanModify`) may edit; an edit replaces title, content, flair and tags, records the edit time, and changes nothing else |
| Posts.DeletePost | posts/views.py:98-102 | Only the author or an admin (`Posts.CanModify`) may delete; deleting a live post sets the deleted flag and stamps `updated_at` (models.py:272) and nothing else; an already deleted post is unchanged |
| Posts.DeletePostIdempotent | posts/views.py:102 | Deleting an already deleted post, at any later time, gives the same post: the equal value emits no update, so `updated_at` stays |
| Posts.PinPost | posts/views.py:115-119 | Only the community's moderator or an admin may pin, and only an admin when the community has no moderator; pinning flips the pinned flag, stamps `updated_at`, and changes nothing else |
| Posts.PinTwiceIsIdentity | posts/views.py:119 | Pinning twice gives the post back except for `updated_at`, which holds the time of the second pin |
| Posts.CreateComment | posts/views.py:224-229 | The new comment belongs to the post and author, is created at the request time, starts undeleted with no votes; the post's comment count goes up by one and its `updated_at` is stamped, nothing else of the post changes |
| Posts.DeleteComment | posts/views.py:308-313 | Only the comment's author or an admin (`Posts.CanModify`) may delete; the comment is soft-deleted and the post's comment count goes down by one whatever the comment's previous state, stamping the post's `updated_at` |
| Posts.CommentCountDrift | posts/views.py:229-313 | Creating and deleting a comment restores the post except for `updated_at`, but deleting the comment again lowers the count once more |
| Posts.NetVotesOnlyMoveByVoting | models.py:280-282 | Viewing, editing, deleting, pinning and commenting leave a post's net votes (`Posts.PostNetVotes`, `get_net_votes`) unchanged; a new comment's net votes (`Posts.CommentNetVotes`, the `get_net_votes` of models.py:329-331) are 0 |
| Communities.CreateCommunity | subreddits/views.py:34-41 | The creator's record is exactly `join_community` applied to it, so only its memberships gain the new id; the creator moderates the new community, which has the given name, title, description and privacy, empty rules, and a member count of 0 |
| Communities.Join | subreddits/views.py:55-57 | The user's record is exactly `join_community` applied to it (idempotent, nothing else of the user changes), and the counter goes up by one whatever the membership was |
| Communities.Leave | subreddits/views.py:68-70 | The user's record is exactly `leave_community` applied to it (idempotent, nothing else of the user changes), and the counter goes down by one whatever the membership was |
| Communities.EditCommunity | subreddits/views.py:83-91 | Only the moderator or an admin may edit, and only an admin when the community has no moderator; an edit replaces title, description and rules and nothing else of the modelled record |
| Communities.JoinDrift | subreddits/views.py:56-57 | A join by an existing member raises the counter one above the membership growth; a newcomer's join keeps the drift |
| Communities.LeaveDrift | subreddits/views.py:69-70 | A leave by a non-member lowers the counter one below the membership change; a member's leave keeps the drift |
| Communities.CreateDrift | subreddits/views.py:34-41 | In any user table where nobody else belongs to the new community, its counter starts one below its real membership |
| Ranking.ModeOf | subreddits/views.py:13-22 | "new" selects creation time, "top" selects upvotes, and every other value selects net votes |
| Ranking.KeyOfSort | subreddits/views.py:17-22 | `Ranking.Key` is the ordered expression: `created_at` for "new", `upvotes` for "top", `upvotes - downvotes` for any other value |
| Ranking.InsertByKey | subreddits/views.py:17-22 | Inserting a post into a descending listing gives a descending listing with that post added |
| Ranking.SortByKey | subreddits/views.py:17-22 | The ordered query returns a permutation of its input in descending key order |
| Ranking.RankingsAgreeOnKeys | subreddits/views.py:17-22 | Any two admissible orderings of the same posts have the same length and the same key at every position |
| Ranking.Page | subreddits/views.py:24 | A page holds at most 20 posts, exactly the 20 (or fewer at the end) that start at index (page-1)*20 |
| Ranking.PagesCoverListing | subreddits/views.py:24 | Every post of a listing is on page i/20+1 at position i%20 |
| Ranking.PageOfRankingIsSorted | subreddits/views.py:24 | A page of a descending listing is descending |
| Ranking.PageCount | api/views.py:35 | No pages for an empty listing; otherwise the fewest pages of 20 that hold every post |
| Feeds.Visible | subreddits/views.py:15 | The filter keeps exactly the non-deleted posts of the scope, each as often as in the table |
| Feeds.Ranked | subreddits/views.py:15-22 | The ordered query is an admissible ordering of exactly the listed posts |
| Feeds.ListingPage | subreddits/views.py:15-24 | The result is page `page` of some admissible ordering of exactly the listed posts, so it holds as many posts as that page of the listing has (20, fewer on the last page, none past it); they are non-deleted posts of the scope in descending key order; a first page of a short listing holds all of them |
| Feeds.CommunityListing | subreddits/views.py:15-24 | The community page is page `page` of some admissible ordering of that community's non-deleted posts, exactly as long as that page of the listing, in descending key order |
| Feeds.PageOfRanked | subreddits/views.py:15-24 | A page of any admissible ordering of the listed posts has the listing's page length, holds only listed posts of the table, is descending, and as the first page of a short listing holds them all |
| Feeds.PageElementsListed | subreddits/views.py:15-24 | Every post on a page of an ordering of the listed posts is a listed post of the table |
| Feeds.ListingPageUpToTies | subreddits/views.py:17-24 | A page cut from any admissible ordering has the same length and the same key at every position |
| Feeds.SummarizeAll | api/views.py:24-33 | One summary per post of the page, in order |
| Feeds.ApiPosts | api/views.py:12-35 | `total` counts every non-deleted post; `pages` is the fewest pages of 20 that hold them; there are exactly as many items as page `page` of the listing holds, and each carries the id, title, author name, community name, counters, comment count and creation time of the post at its position on that page |
| Feeds.HomeOrder | posts/views.py:20-25 | The home feed fails for "top", and orders every other value newest first, agreeing with the community listing only for "new" |
| TimeSince.Elapsed | app.py:35-36 | The delta is normalised: seconds in [0, 86400), and its whole seconds are the elapsed microseconds rounded down |
| TimeSince.Classify | app.py:37-48 | Exactly one bucket applies: years for more than 365 days, months (1 to 12) for 31 to 365 days, days for 1 to 30 days, otherwise hours (1 to 23) above 3600 seconds, minutes (1 to 60) above 60 seconds, else "just now"; each number is the floor of the quotient |
| TimeSince.Filter | app.py:30-48 | A missing timestamp gives the empty text; a present one is bucketed by its elapsed time |
| TimeSince.ClassifyMonotone | app.py:37-48 | For past events, a longer elapsed time never gives a finer bucket, or a smaller number in the same bucket |
| TimeSince.YearBoundary | app.py:37-40 | Exactly 365 days is 12 months; 366 days is 1 year |
| TimeSince.NearFutureIsHoursAgo | app.py:35-44 | An event less than a second in the future is minus one day plus 86399 seconds, shown as 23 hours ago |
| Config.ReplaceFirst | config.py:13 | The first occurrence of the pattern, wherever it is, is replaced and the text before and after it kept; with no occurrence the string is unchanged |
| Config.NormalizeUrl | config.py:12-13 | A leading `postgres://` becomes `postgresql://` with the rest unchanged; any other URL is unchanged; no result starts with `postgres://` |
| Config.NormalizeIdempotent | config.py:12-13 | Normalising twice is normalising once |
| Config.DatabaseUri | config.py:9-17 | An absent or empty variable gives `sqlite:///app.db`; a present one gives its normalised form |
| Config.ConfigUri | config.py:51-68 | Testing always uses the in-memory database; development, production and default use the base URL; any other name is a lookup error |

## Left out

- The ORM, the session and transactions (`db.session.add/delete/commit`) are left out. Each route is one state transition over immutable values.
- Concurrency is left out. The lost-update race on shared counters is a property of the database.
- `add_log` audit rows and the flash messages, redirects and rendered templates are left out.
- Inside the `paginate` library:
  - A page number below 1 and a page past the end are answered 404 there. `Ranking.Page` and the listings require `page >= 1`, and an out-of-range page gives an empty page instead of a 404.
  - A non-numeric `page` argument falls back to 1 in `request.args.get`. It is not modelled.
- The home feed's `subreddit` filter names `Subreddit`, which `posts/views.py` does not import. Only the home feed's order is modelled (`Feeds.HomeOrder`).
- Name lookups:
  - `Feeds.ApiPosts` takes the author and community names as functions.
  - The `created_at.isoformat()` text is not modelled; the item carries the timestamp.
- `posts/views.py` does not import `jsonify`, `datetime` or `Notification`. The vote routes commit before the failing `jsonify`, so the model keeps their state change. Edit and comment creation are modelled as intended, with `now` as a parameter.
- The comment cooldown in `create_comment` is left out. It depends on the wall clock and on `timedelta.seconds`.
- The notification that `create_comment` adds is left out.
- `users/views.py` calls `block`/`unblock`, which `User` does not define. The model gives the intended `block_user`/`unblock_user` semantics on the user record (`Accounts.BlockUser`, `Accounts.UnblockUser`).
- Password hashing, the JSON privacy settings and the WTForms validators are left out. They are foreign calls or declarative library configuration.
- Full-text search (`ilike`) is left out.
- The `shorten_number` filter is left out: it uses float division and formatting.
- The `timesince` texts themselves (Russian wording, number formatting) are left out. `TimeSince.Filter` returns the bucket and its number.
- A `datetime` is never falsy in Python. So the "falsy timestamp" case of `timesince` is only a missing value (`None`).
- The app factory, blueprint registration and error handlers are left out.
- The route-only files `auth`, `messages`, `admin`, `reports` and `search` are left out. So are the seeding scripts, `setup.py`, `cleanup_app.py`, `test_routes.py` and the browser script.
- The remaining `Config` settings are constants the core never reads: cookies, upload limits and the per-page settings. The routes hard-code 20 instead.
- Posts.DeleteComment: requires that the comment belongs to the given post. The route reaches the post through the comment's own foreign key, so it always does.
- Missing records are not modelled outside the vote routes. The edit, delete, pin and comment routes look the post or comment up with `get_or_404` (`posts/views.py:66`, `96`, `113`, `215`, `306`), and the community routes use `first_or_404` (`subreddits/views.py:11`, `55`, `68`, `81`). The model passes the record in, so their 404 answer is not expressed. The vote routes model it as `Votes.NotFound`.
- The vote routes' counter writes also stamp the target's `updated_at`. `Votes.Votable` does not carry that column.
- `Community.moderatorId` is optional, because `moderator_id` is nullable (models.py:210). Deleting a moderator's account leaves it empty, since `moderated_subreddits` does not cascade. The account deletion itself is not modelled.
- Three other tables also have an `updated_at` column with `onupdate`, and the model leaves it out of each record:
  - `Comment.updated_at` (models.py:319), stamped when `delete_comment` soft-deletes a comment;
  - `Subreddit.updated_at` (models.py:215), stamped by the join and leave counter writes and by the edit;
  - `User.updated_at` (models.py:57), stamped by every karma write of the vote routes.

  So "nothing else changes" in the rows of `Posts.DeleteComment`, the `Communities` operations and `Votes` is about the modelled fields.

=== FILE: accounts.dfy ===
/**
 * The relation helpers of the `User` model (models.py): following other users,
 * community membership, blocking, and saved posts. Each relation is a set of ids
 * (the association tables have composite primary keys, so a pair appears at most
 * once), and each add or remove first checks membership, so both are idempotent.
 */
module Accounts {
  import opened Common

  datatype User = User(
    id: UserId,
    role: string,
    karma: int,
    following: set<UserId>,
    communities: set<CommunityId>,
    blocking: set<UserId>,
    saved: set<PostId>)

  /** `current_user.role == 'admin'`. */
  predicate IsAdmin(u: User) {
    u.role == AdminRole
  }

  /** Add `x` unless it is already there: `if x not in rel: rel.append(x)`. */
  function Insert(s: set<nat>, x: nat): (r: set<nat>)
    ensures x in r
    ensures forall y :: y != x ==> (y in r <==> y in s)
    ensures x in s ==> r == s
  {
    if x !in s then s + {x} else s
  }

  /** Remove `x` if it is there: `if x in rel: rel.remove(x)`. */
  function Erase(s: set<nat>, x: nat): (r: set<nat>)
    ensures x !in r
    ensures forall y :: y != x ==> (y in r <==> y in s)
    ensures x !in s ==> r == s
  {
    if x in s then s - {x} else s
  }

  predicate IsFollowing(u: User, other: UserId) {
    other in u.following
  }

  /** `follow`: afterwards `u` follows `other`; no other follow and no other relation changes. */
  function Follow(u: User, other: UserId): (r: User)
    ensures IsFollowing(r, other)
    ensures forall w :: w != other ==> (IsFollowing(r, w) <==> IsFollowing(u, w))
    ensures IsFollowing(u, other) ==> r == u
    ensures r.(following := u.following) == u
  {
    u.(following := Insert(u.following, other))
  }

  /** `unfollow`: afterwards `u` does not follow `other`; a no-op when it did not. */
  function Unfollow(u: User, other: UserId): (r: User)
    ensures !IsFollowing(r, other)
    ensures forall w :: w != other ==> (IsFollowing(r, w) <==> IsFollowing(u, w))
    ensures !IsFollowing(u, other) ==> r == u
    ensures r.(following := u.following) == u
  {
    u.(following := Erase(u.following, other))
  }

  predicate IsInCommunity(u: User, c: CommunityId) {
    c in u.communities
  }

  /** `join_community`: afterwards `u` is a member of `c`; nothing else changes. */
  function JoinCommunity(u: User, c: CommunityId): (r: User)
    ensures IsInCommunity(r, c)
    ensures forall d :: d != c ==> (IsInCommunity(r, d) <==> IsInCommunity(u, d))
    ensures IsInCommunity(u, c) ==> r == u
    ensures r.(communities := u.communities) == u
  {
    u.(communities := Insert(u.communities, c))
  }

  /** `leave_community`: afterwards `u` is not a member of `c`; a no-op for a non-member. */
  function LeaveCommunity(u: User, c: CommunityId): (r: User)
    ensures !IsInCommunity(r, c)
    ensures forall d :: d != c ==> (IsInCommunity(r, d) <==> IsInCommunity(u, d))
    ensures !IsInCommunity(u, c) ==> r == u
    ensures r.(communities := u.communities) == u
  {
    u.(communities := Erase(u.communities, c))
  }

  predicate IsBlocking(u: User, other: UserId) {
    other in u.blocking
  }

  /** `block_user`: afterwards `u` blocks `other`; nothing else changes. */
  function BlockUser(u: User, other: UserId): (r: User)
    ensures IsBlocking(r, other)
    ensures forall w :: w != other ==> (IsBlocking(r, w) <==> IsBlocking(u, w))
    ensures IsBlocking(u, other) ==> r == u
    ensures r.(blocking := u.blocking) == u
  {
    u.(blocking := Insert(u.blocking, other))
  }

  /** `unblock_user`: afterwards `u` does not block `other`; a no-op when it did not. */
  function UnblockUser(u: User, other: UserId): (r: User)
    ensures !IsBlocking(r, other)
    ensures forall w :: w != other ==> (IsBlocking(r, w) <==> IsBlocking(u, w))
    ensures !IsBlocking(u, other) ==> r == u
    ensures r.(blocking := u.blocking) == u
  {
    u.(blocking := Erase(u.blocking, other))
  }

  predicate IsPostSaved(u: User, p: PostId) {
    p in u.saved
  }

  /** `save_post`: afterwards the post is saved; nothing else changes. */
  function SavePost(u: User, p: PostId): (r: User)
    ensures IsPostSaved(r, p)
    ensures forall q :: q != p ==> (IsPostSaved(r, q) <==> IsPostSaved(u, q))
    ensures IsPostSaved(u, p) ==> r == u
    ensures r.(saved := u.saved) == u
  {
    u.(saved := Insert(u.saved, p))
  }

  /** `unsave_post`: afterwards the post is not saved; a no-op when it was not. */
  function UnsavePost(u: User, p: PostId): (r: User)
    ensures !IsPostSaved(r, p)
    ensures forall q :: q != p ==> (IsPostSaved(r, q) <==> IsPostSaved(u, q))
    ensures !IsPostSaved(u, p) ==> r == u
    ensures r.(saved := u.saved) == u
  {
    u.(saved := Erase(u.saved, p))
  }

  /** Adding then removing an absent element gives the set back; removing then adding a present one too. */
  lemma InsertEraseInverse(s: set<nat>, x: nat)
    ensures x !in s ==> Erase(Insert(s, x), x) == s
    ensures x in s ==> Insert(Erase(s, x), x) == s
  {
    if x !in s {
      assert Erase(Insert(s, x), x) == (s + {x}) - {x};
    } else {
      assert Insert(Erase(s, x), x) == (s - {x}) + {x};
    }
  }

  /**
   * Each relation's add and remove are inverse: following a user one did not follow and
   * then unfollowing gives the same user back, and likewise for membership, blocking and
   * saving.
   */
  lemma AddRemoveRoundTrip(u: User, other: UserId, c: CommunityId, p: PostId)
    ensures !IsFollowing(u, other) ==> Unfollow(Follow(u, other), other) == u
    ensures IsFollowing(u, other) ==> Follow(Unfollow(u, other), other) == u
    ensures !IsInCommunity(u, c) ==> LeaveCommunity(JoinCommunity(u, c), c) == u
    ensures IsInCommunity(u, c) ==> JoinCommunity(LeaveCommunity(u, c), c) == u
    ensures !IsBlocking(u, other) ==> UnblockUser(BlockUser(u, other), other) == u
    ensures IsBlocking(u, other) ==> BlockUser(UnblockUser(u, other), other) == u
    ensures !IsPostSaved(u, p) ==> UnsavePost(SavePost(u, p), p) == u
    ensures IsPostSaved(u, p) ==> SavePost(UnsavePost(u, p), p) == u
  {
    InsertEraseInverse(u.following, other);
    InsertEraseInverse(u.communities, c);
    InsertEraseInverse(u.blocking, other);
    InsertEraseInverse(u.saved, p);
  }
}

=== FILE: common.dfy ===
/** Failure-carrying wrappers shared by the modules of this model. */
module Common {

  /** A value that may be missing: an absent request argument, a row the query did not find. */
  datatype Option<+T> = None | Some(value: T)

  /** The outcome of a request: the new state, or the reason the request was refused. */
  datatype Result<+T, +E> = Ok(value: T) | Err(error: E)

  /** A route refused the actor: it flashes a message and redirects, changing nothing. */
  datatype Denied = Forbidden

  /** Identities of the rows of the user, community, post and comment tables. */
  type UserId = nat
  type CommunityId = nat
  type PostId = nat
  type CommentId = nat

  /** The role column of the user table: 'user', 'moderator' or 'admin'. */
  const AdminRole: string := "admin"
}

=== FILE: communities.dfy ===
/**
 * The community routes of subreddits/views.py: creation, join, leave and the
 * moderator-or-admin edit guard. `member_count` is a counter the routes move by one
 * on every join and every leave, whether or not the membership itself changed, so
 * it drifts away from the true number of members.
 */
module Communities {
  import opened Common
  import opened Accounts

  datatype Community = Community(
    id: CommunityId,
    name: string,
    title: string,
    description: string,
    rules: string,
    isPrivate: bool,
    moderatorId: Option<UserId>,
    memberCount: int)

  /**
   * `create_subreddit` after a valid form: the creator becomes moderator and member, but
   * `member_count` keeps its column default 0. `moderator_id` is nullable: it is set
   * here, and deleting the moderator's account later leaves the community without one.
   */
  function CreateCommunity(creator: User, id: CommunityId, name: string, title: string,
                           description: string, isPrivate: bool): (r: (User, Community))
    ensures r.0 == JoinCommunity(creator, id)
    ensures IsInCommunity(r.0, id) && r.0.(communities := creator.communities) == creator
    ensures r.1.id == id && r.1.moderatorId == Some(creator.id) && r.1.memberCount == 0
    ensures r.1.name == name && r.1.title == title && r.1.description == description
    ensures r.1.rules == "" && r.1.isPrivate == isPrivate
  {
    (JoinCommunity(creator, id), Community(id, name, title, description, "", isPrivate, Some(creator.id), 0))
  }

  /** `join_subreddit`: membership is added idempotently, but the counter always goes up. */
  function Join(u: User, c: Community): (r: (User, Community))
    ensures r.0 == JoinCommunity(u, c.id)
    ensures IsInCommunity(r.0, c.id)
    ensures r.1.memberCount == c.memberCount + 1 && r.1.(memberCount := c.memberCount) == c
  {
    (JoinCommunity(u, c.id), c.(memberCount := c.memberCount + 1))
  }

  /** `leave_subreddit`: membership is removed if present, but the counter always goes down. */
  function Leave(u: User, c: Community): (r: (User, Community))
    ensures r.0 == LeaveCommunity(u, c.id)
    ensures !IsInCommunity(r.0, c.id)
    ensures r.1.memberCount == c.memberCount - 1 && r.1.(memberCount := c.memberCount) == c
  {
    (LeaveCommunity(u, c.id), c.(memberCount := c.memberCount - 1))
  }

  /**
   * `edit_subreddit` after a valid form: the moderator or an admin replaces title,
   * description and rules. A community without a moderator can be edited only by an admin.
   */
  function EditCommunity(actor: User, c: Community, title: string, description: string, rules: string)
    : (r: Result<Community, Denied>)
    ensures r.Err? <==> !(c.moderatorId == Some(actor.id) || actor.role == "admin")
    ensures c.moderatorId.None? ==> (r.Ok? <==> actor.role == "admin")
    ensures r.Ok? ==>
      && r.value.title == title && r.value.description == description && r.value.rules == rules
      && r.value.(title := c.title, description := c.description, rules := c.rules) == c
  {
    if c.moderatorId != Some(actor.id) && !IsAdmin(actor) then Err(Forbidden)
    else Ok(c.(title := title, description := description, rules := rules))
  }

  /** The users of `users` who are members of community `c`. */
  function Members(users: map<UserId, User>, c: CommunityId): set<UserId> {
    set u | u in users && IsInCommunity(users[u], c)
  }

  /** How far the counter is above the true number of members. */
  function Drift(users: map<UserId, User>, c: Community): int {
    c.memberCount - |Members(users, c.id)|
  }

  /** The join route run for the user `uid` of the user table. */
  function JoinAs(users: map<UserId, User>, uid: UserId, c: Community): (r: (map<UserId, User>, Community))
    requires uid in users
    ensures r.0.Keys == users.Keys
  {
    var (u, c') := Join(users[uid], c);
    (users[uid := u], c')
  }

  /** The leave route run for the user `uid` of the user table. */
  function LeaveAs(users: map<UserId, User>, uid: UserId, c: Community): (r: (map<UserId, User>, Community))
    requires uid in users
    ensures r.0.Keys == users.Keys
  {
    var (u, c') := Leave(users[uid], c);
    (users[uid := u], c')
  }

  /**
   * Joining keeps the counter honest only for a newcomer: a join by someone who is
   * already a member raises `member_count` by one more than the membership grew.
   */
  lemma JoinDrift(users: map<UserId, User>, uid: UserId, c: Community)
    requires uid in users
    ensures var (users', c') := JoinAs(users, uid, c);
            Drift(users', c') == Drift(users, c) + (if IsInCommunity(users[uid], c.id) then 1 else 0)
  {
    var (users', c') := JoinAs(users, uid, c);
    if IsInCommunity(users[uid], c.id) {
      assert users' == users;
    } else {
      assert Members(users', c.id) == Members(users, c.id) + {uid};
    }
  }

  /**
   * Leaving keeps the counter honest only for a member: a leave by a non-member lowers
   * `member_count` although nobody left, so the counter can fall below the membership.
   */
  lemma LeaveDrift(users: map<UserId, User>, uid: UserId, c: Community)
    requires uid in users
    ensures var (users', c') := LeaveAs(users, uid, c);
            Drift(users', c') == Drift(users, c) - (if IsInCommunity(users[uid], c.id) then 0 else 1)
  {
    var (users', c') := LeaveAs(users, uid, c);
    if !IsInCommunity(users[uid], c.id) {
      assert users' == users;
    } else {
      assert Members(users, c.id) == Members(users', c.id) + {uid};
    }
  }

  /**
   * Creating a community leaves its counter one below its membership: in a user table
   * where nobody else belongs to the new id, the creator becomes its only member while
   * the count starts at 0.
   */
  lemma CreateDrift(users: map<UserId, User>, creator: User, id: CommunityId, name: string, title: string,
                    description: string, isPrivate: bool)
    requires creator.id in users
    requires forall w :: w in users && w != creator.id ==> !IsInCommunity(users[w], id)
    ensures var (u, c) := CreateCommunity(creator, id, name, title, description, isPrivate);
            Drift(users[creator.id := u], c) == -1
  {
    var (u, c) := CreateCommunity(creator, id, name, title, description, isPrivate);
    assert Members(users[creator.id := u], id) == {creator.id};
  }
}

=== FILE: config.dfy ===
/**
 * The database URL selection of config.py. `Config` reads `DATABASE_URL` once: a
 * non-empty value is used, after rewriting a leading `postgres://` to the
 * `postgresql://` scheme the driver expects; an absent or empty one falls back to a
 * local SQLite file. The testing configuration overrides the URL with an in-memory
 * database. The environment is a parameter.
 */
module Config {
  import opened Common

  const PostgresScheme: string := "postgres://"
  const PostgresqlScheme: string := "postgresql://"
  const SqliteFile: string := "sqlite:///app.db"
  const SqliteMemory: string := "sqlite:///:memory:"

  predicate StartsWith(s: string, prefix: string) {
    |prefix| <= |s| && s[..|prefix|] == prefix
  }

  /** `p` occurs in `s` at index `i` and at no earlier index. */
  predicate FirstOccurrence(s: string, p: string, i: nat) {
    i <= |s| && StartsWith(s[i..], p) && forall j :: 0 <= j < i ==> !StartsWith(s[j..], p)
  }

  /** The suffixes of `s[1..]` are the suffixes of `s` from index 1 on. */
  lemma SuffixOfTail(s: string, j: nat)
    requires 1 <= j <= |s|
    ensures s[j..] == s[1..][j - 1..]
  {
  }

  /** `s.find(p)`: the first index at which `p` occurs in `s`, if any. */
  function Find(s: string, p: string): (r: Option<nat>)
    ensures r.Some? ==> r.value + |p| <= |s| && FirstOccurrence(s, p, r.value)
    ensures r.None? ==> forall j :: 0 <= j <= |s| ==> !StartsWith(s[j..], p)
    decreases |s|
  {
    if StartsWith(s, p) then
      assert s[0..] == s;
      Some(0)
    else if |s| == 0 then None
    else
      match Find(s[1..], p)
      case None =>
        assert s[0..] == s;
        forall j | 1 <= j <= |s| ensures !StartsWith(s[j..], p) {
          SuffixOfTail(s, j);
        }
        None
      case Some(i) =>
        assert s[0..] == s;
        forall j | 1 <= j <= i + 1 ensures s[j..] == s[1..][j - 1..] {
          SuffixOfTail(s, j);
        }
        Some(i + 1)
  }

  /**
   * `s.replace(pattern, replacement, 1)`: the first occurrence of `pattern`, wherever it
   * is, is replaced and the text around it kept; with no occurrence the string is unchanged.
   */
  function ReplaceFirst(s: string, pattern: string, replacement: string): (r: string)
    ensures forall i: nat :: FirstOccurrence(s, pattern, i) ==>
              i + |pattern| <= |s| && r == s[..i] + replacement + s[i + |pattern|..]
    ensures (forall j :: 0 <= j <= |s| ==> !StartsWith(s[j..], pattern)) ==> r == s
  {
    match Find(s, pattern)
    case None => s
    case Some(k) =>
      assert forall i: nat :: FirstOccurrence(s, pattern, i) ==> i == k;
      s[..k] + replacement + s[k + |pattern|..]
  }

  /**
   * The rewrite of config.py: a URL that starts with `postgres://` gets the
   * `postgresql://` scheme with the rest kept, any other URL is kept as it is, and no
   * result starts with `postgres://`.
   */
  function NormalizeUrl(url: string): (r: string)
    ensures StartsWith(url, PostgresScheme) ==> r == PostgresqlScheme + url[|PostgresScheme|..]
    ensures !StartsWith(url, PostgresScheme) ==> r == url
    ensures !StartsWith(r, PostgresScheme)
  {
    if StartsWith(url, PostgresScheme) then
      assert url[0..] == url;
      assert FirstOccurrence(url, PostgresScheme, 0);
      var r := ReplaceFirst(url, PostgresScheme, PostgresqlScheme);
      assert r[..|PostgresScheme|][8] == 'q';
      r
    else url
  }

  /** Normalising twice is normalising once. */
  lemma NormalizeIdempotent(url: string)
    ensures NormalizeUrl(NormalizeUrl(url)) == NormalizeUrl(url)
  {
  }

  /**
   * `SQLALCHEMY_DATABASE_URI` of the base configuration, from `DATABASE_URL`: absent and
   * empty (both falsy) give the SQLite file, anything else its normalised form.
   */
  function DatabaseUri(env: Option<string>): (r: string)
    ensures env.None? || env.value == "" ==> r == SqliteFile
    ensures env.Some? && env.value != "" ==> r == NormalizeUrl(env.value)
    ensures !StartsWith(r, PostgresScheme)
  {
    if env.Some? && env.value != "" then NormalizeUrl(env.value)
    else
      assert SqliteFile[1] != PostgresScheme[1];
      SqliteFile
  }

  /**
   * The URL of `config[name]`: the testing configuration always uses an in-memory
   * database; development, production and default inherit the base URL; any other name
   * is a `KeyError`, modelled as `None`.
   */
  function ConfigUri(name: string, env: Option<string>): (r: Option<string>)
    ensures r.None? <==> name !in {"development", "testing", "production", "default"}
    ensures name == "testing" ==> r == Some(SqliteMemory)
    ensures name in {"development", "production", "default"} ==> r == Some(DatabaseUri(env))
  {
    if name == "testing" then Some(SqliteMemory)
    else if name in {"development", "production", "default"} then Some(DatabaseUri(env))
    else None
  }
}

=== FILE: feeds.dfy ===
/**
 * The three post listings. The community page (`view_subreddit`, subreddits/views.py)
 * and the JSON listing (`api_posts`, api/views.py) filter out soft-deleted posts, order
 * them by the `Ranking` rule and cut a page of 20. The home feed (`index`, posts/views.py)
 * orders differently: see `HomeOrder`.
 */
module Feeds {
  import opened Common
  import opened Posts
  import opened Ranking

  /** Whether a post belongs in a listing: not soft-deleted, and in the community when one is given. */
  predicate Listed(p: Post, scope: Option<CommunityId>) {
    !p.isDeleted && (scope.None? || p.communityId == scope.value)
  }

  /** `Post.query.filter_by(is_deleted=False[, subreddit_id=...])`: exactly the listed posts. */
  function Visible(posts: seq<Post>, scope: Option<CommunityId>): (r: seq<Post>)
    ensures forall p :: multiset(r)[p] == if Listed(p, scope) then multiset(posts)[p] else 0
  {
    if |posts| == 0 then []
    else
      assert posts == [posts[0]] + posts[1..];
      var rest := Visible(posts[1..], scope);
      if Listed(posts[0], scope) then [posts[0]] + rest else rest
  }

  /** The ordered query, before paging: one admissible ordering of the listed posts. */
  function Ranked(posts: seq<Post>, scope: Option<CommunityId>, sort: string): (r: seq<Post>)
    ensures IsRanking(ModeOf(sort), Visible(posts, scope), r)
  {
    SortByKey(ModeOf(sort), Visible(posts, scope))
  }

  /** An element of a ranking of the listed posts is a listed post of the table. */
  lemma RankedElement(posts: seq<Post>, scope: Option<CommunityId>, r: seq<Post>, x: Post)
    requires multiset(r) == multiset(Visible(posts, scope)) && x in r
    ensures Listed(x, scope) && x in posts
  {
    assert x in multiset(r);
    assert multiset(posts)[x] > 0;
  }

  /** How many posts page `page` of a listing of `n` posts holds: 20, fewer on the last page, none past it. */
  function PageLength(n: nat, page: nat): nat
    requires page >= 1
  {
    if n <= (page - 1) * PerPage then 0
    else if n - (page - 1) * PerPage < PerPage then n - (page - 1) * PerPage
    else PerPage
  }

  /** `r` is page `page` of some admissible ordering of the listed posts. */
  ghost predicate IsListingPage(posts: seq<Post>, scope: Option<CommunityId>, sort: string, page: nat, r: seq<Post>)
    requires page >= 1
  {
    exists ranked :: IsRanking(ModeOf(sort), Visible(posts, scope), ranked) && r == Page(ranked, page)
  }

  /**
   * One page of a listing: the `page`-th cut of 20 from an admissible ordering of the
   * listed posts. So it holds as many posts as that page of the listing has, all of them
   * listed posts of the table, in descending key order; a first page of a listing of at
   * most 20 posts holds exactly the listed posts.
   */
  function ListingPage(posts: seq<Post>, scope: Option<CommunityId>, sort: string, page: nat)
    : (r: seq<Post>)
    requires page >= 1
    ensures IsListingPage(posts, scope, sort, page, r)
    ensures |r| == PageLength(|Visible(posts, scope)|, page)
    ensures |r| <= PerPage
    ensures forall i :: 0 <= i < |r| ==> Listed(r[i], scope) && r[i] in posts
    ensures SortedDesc(ModeOf(sort), r)
    ensures page == 1 && |Visible(posts, scope)| <= PerPage ==>
              multiset(r) == multiset(Visible(posts, scope))
  {
    var ranked := Ranked(posts, scope, sort);
    PageOfRanked(posts, scope, ranked, ModeOf(sort), page);
    Page(ranked, page)
  }

  /** The facts `ListingPage` passes on, about a page of any ranking of the listed posts. */
  lemma PageOfRanked(posts: seq<Post>, scope: Option<CommunityId>, ranked: seq<Post>, m: SortMode, page: nat)
    requires page >= 1 && IsRanking(m, Visible(posts, scope), ranked)
    ensures var r := Page(ranked, page);
            && |r| == PageLength(|Visible(posts, scope)|, page)
            && (forall i :: 0 <= i < |r| ==> Listed(r[i], scope) && r[i] in posts)
            && SortedDesc(m, r)
            && (page == 1 && |Visible(posts, scope)| <= PerPage ==> multiset(r) == multiset(Visible(posts, scope)))
  {
    RankingLength(m, Visible(posts, scope), ranked);
    PageElementsListed(posts, scope, ranked, page);
    PageOfRankingIsSorted(m, ranked, page);
    if page == 1 && |ranked| <= PerPage {
      assert Page(ranked, page) == ranked;
    }
  }

  /** A ranking is as long as its input. */
  lemma RankingLength(m: SortMode, input: seq<Post>, ranked: seq<Post>)
    requires IsRanking(m, input, ranked)
    ensures |ranked| == |input|
  {
    assert |ranked| == |multiset(ranked)| == |multiset(input)| == |input|;
  }

  /** Every post on a page of a ranking of the listed posts is a listed post of the table. */
  lemma PageElementsListed(posts: seq<Post>, scope: Option<CommunityId>, ranked: seq<Post>, page: nat)
    requires page >= 1 && multiset(ranked) == multiset(Visible(posts, scope))
    ensures forall i :: 0 <= i < |Page(ranked, page)| ==> Listed(Page(ranked, page)[i], scope) && Page(ranked, page)[i] in posts
  {
    var r := Page(ranked, page);
    forall i | 0 <= i < |r| ensures Listed(r[i], scope) && r[i] in posts {
      assert r[i] == ranked[(page - 1) * PerPage + i];
      RankedElement(posts, scope, ranked, r[i]);
    }
  }

  /**
   * `view_subreddit`: page `page` of an admissible ordering of the non-deleted posts of
   * one community, as many as that page of the community's listing holds.
   */
  function CommunityListing(posts: seq<Post>, community: CommunityId, sort: string, page: nat)
    : (r: seq<Post>)
    requires page >= 1
    ensures IsListingPage(posts, Some(community), sort, page, r)
    ensures |r| == PageLength(|Visible(posts, Some(community))|, page)
    ensures |r| <= PerPage
    ensures forall i :: 0 <= i < |r| ==> !r[i].isDeleted && r[i].communityId == community && r[i] in posts
    ensures SortedDesc(ModeOf(sort), r)
  {
    ListingPage(posts, Some(community), sort, page)
  }

  /**
   * The page is determined up to ties: the page cut from ANY admissible ordering of the
   * listed posts has the same length and the same key at every position as this one.
   */
  lemma ListingPageUpToTies(posts: seq<Post>, scope: Option<CommunityId>, sort: string, page: nat,
                            other: seq<Post>)
    requires page >= 1 && IsRanking(ModeOf(sort), Visible(posts, scope), other)
    ensures var r := ListingPage(posts, scope, sort, page);
            var q := Page(other, page);
            |r| == |q| && forall i :: 0 <= i < |r| ==> Key(ModeOf(sort), r[i]) == Key(ModeOf(sort), q[i])
  {
    var ranked := Ranked(posts, scope, sort);
    RankingsAgreeOnKeys(ModeOf(sort), Visible(posts, scope), ranked, other);
  }

  /** One item of the JSON listing. */
  datatype Summary = Summary(
    id: PostId,
    title: string,
    author: string,
    community: string,
    upvotes: int,
    downvotes: int,
    comments: int,
    createdAt: int)

  /** The JSON body of `api_posts`: the items, the number of listed posts and the number of pages. */
  datatype ApiResponse = ApiResponse(posts: seq<Summary>, total: nat, pages: nat)

  function Summarize(p: Post, authorName: UserId -> string, communityName: CommunityId -> string): Summary {
    Summary(p.id, p.title, authorName(p.authorId), communityName(p.communityId),
            p.upvotes, p.downvotes, p.commentCount, p.createdAt)
  }

  function SummarizeAll(ps: seq<Post>, authorName: UserId -> string, communityName: CommunityId -> string)
    : (r: seq<Summary>)
    ensures |r| == |ps|
    ensures forall i :: 0 <= i < |ps| ==> r[i] == Summarize(ps[i], authorName, communityName)
  {
    if |ps| == 0 then [] else [Summarize(ps[0], authorName, communityName)] + SummarizeAll(ps[1..], authorName, communityName)
  }

  /**
   * `api_posts`: every non-deleted post of every community is counted in `total`, the
   * page count covers `total` in pages of 20, the items are as many as page `page` of
   * that listing holds, and each carries the id, title, author name, community name,
   * counters and creation time of the post at its position on the page.
   * `authorName` and `communityName` stand for the `author` and `subreddit` relationships.
   */
  function ApiPosts(posts: seq<Post>, sort: string, page: nat,
                    authorName: UserId -> string, communityName: CommunityId -> string)
    : (r: ApiResponse)
    requires page >= 1
    ensures r.total == |Visible(posts, None)|
    ensures r.total == 0 ==> r.pages == 0
    ensures r.total > 0 ==> (r.pages - 1) * PerPage < r.total <= r.pages * PerPage
    ensures |r.posts| == PageLength(r.total, page) == |ListingPage(posts, None, sort, page)|
    ensures |r.posts| <= PerPage
    ensures forall i :: 0 <= i < |r.posts| ==>
              var q := ListingPage(posts, None, sort, page);
              && i < |q| && !q[i].isDeleted && q[i] in posts
              && r.posts[i].id == q[i].id && r.posts[i].title == q[i].title
              && r.posts[i].author == authorName(q[i].authorId)
              && r.posts[i].community == communityName(q[i].communityId)
              && r.posts[i].upvotes == q[i].upvotes && r.posts[i].downvotes == q[i].downvotes
              && r.posts[i].comments == q[i].commentCount && r.posts[i].createdAt == q[i].createdAt
  {
    var items := ListingPage(posts, None, sort, page);
    var total := |Visible(posts, None)|;
    ApiResponse(SummarizeAll(items, authorName, communityName), total, PageCount(total))
  }

  /**
   * The order of the home feed (`index` in posts/views.py): `new` is newest first, `top`
   * orders by a `score` column the post table does not have (the query fails), and every
   * other value, the default `hot` included, is also newest first. So only for `new` does
   * it agree with the community and JSON listings.
   */
  function HomeOrder(sort: string): (r: Option<SortMode>)
    ensures r.None? <==> sort == "top"
    ensures r.Some? ==> r.value == New
    ensures r.Some? ==> (r.value == ModeOf(sort) <==> sort == "new")
  {
    if sort == "new" then Some(New)
    else if sort == "top" then None
    else Some(New)
  }
}

=== FILE: ledger.dfy ===
/**
 * The vote tables `post_vote` and `comment_vote` (models.py, classes PostVote and
 * CommentVote) as one sequence of rows. A row records that a voter cast an upvote or
 * a downvote on a post or a comment. The unique constraints on (user_id, post_id) and
 * (user_id, comment_id) become the predicate `Unique`, which the vote transitions
 * preserve; the lookups of the routes (`filter_by(...).first()`) become `FindVote`.
 */
module Ledger {
  import opened Common

  /** The `vote_type` column: 'upvote' or 'downvote'. */
  datatype VoteKind = Upvote | Downvote

  /** What a row is about: a post (table post_vote) or a comment (table comment_vote). */
  datatype Target = PostTarget(postId: PostId) | CommentTarget(commentId: CommentId)

  datatype VoteRow = VoteRow(voter: UserId, target: Target, kind: VoteKind)

  /** The other button. */
  function Opposite(k: VoteKind): VoteKind {
    match k
    case Upvote => Downvote
    case Downvote => Upvote
  }

  predicate Keyed(row: VoteRow, voter: UserId, target: Target) {
    row.voter == voter && row.target == target
  }

  /** The database's unique constraint: at most one row per (voter, target). */
  predicate Unique(rows: seq<VoteRow>) {
    forall i, j :: 0 <= i < j < |rows| ==>
      !(rows[i].voter == rows[j].voter && rows[i].target == rows[j].target)
  }

  /** The index of the first row of `voter` on `target`, as `filter_by(...).first()` finds it. */
  function FindVote(rows: seq<VoteRow>, voter: UserId, target: Target): (r: Option<nat>)
    ensures r.Some? ==> r.value < |rows| && Keyed(rows[r.value], voter, target)
    ensures r.Some? ==> forall j :: 0 <= j < r.value ==> !Keyed(rows[j], voter, target)
    ensures r.None? <==> forall j :: 0 <= j < |rows| ==> !Keyed(rows[j], voter, target)
  {
    if |rows| == 0 then None
    else if Keyed(rows[0], voter, target) then Some(0)
    else match FindVote(rows[1..], voter, target)
      case None => None
      case Some(i) => Some(i + 1)
  }

  /** The ledger state of one (voter, target) pair: no vote, or the kind of the row found. */
  function StateOf(rows: seq<VoteRow>, voter: UserId, target: Target): Option<VoteKind> {
    match FindVote(rows, voter, target)
    case None => None
    case Some(i) => Some(rows[i].kind)
  }

  /** The number of rows of `kind` on `target`. */
  function Count(rows: seq<VoteRow>, target: Target, kind: VoteKind): (n: nat)
    ensures n <= |rows|
  {
    if |rows| == 0 then 0
    else (if rows[0].target == target && rows[0].kind == kind then 1 else 0)
         + Count(rows[1..], target, kind)
  }

  /** `db.session.delete(existing_vote)`. */
  function Remove(rows: seq<VoteRow>, i: nat): seq<VoteRow>
    requires i < |rows|
  {
    rows[..i] + rows[i + 1..]
  }

  /** `existing_vote.vote_type = ...`. */
  function Retype(rows: seq<VoteRow>, i: nat, kind: VoteKind): seq<VoteRow>
    requires i < |rows|
  {
    rows[i := rows[i].(kind := kind)]
  }

  /** Whether a row contributes to `Count(_, target, kind)`. */
  function Weight(row: VoteRow, target: Target, kind: VoteKind): nat {
    if row.target == target && row.kind == kind then 1 else 0
  }

  lemma {:induction false} CountConcat(a: seq<VoteRow>, b: seq<VoteRow>, t: Target, k: VoteKind)
    ensures Count(a + b, t, k) == Count(a, t, k) + Count(b, t, k)
  {
    if |a| == 0 {
      assert a + b == b;
    } else {
      assert (a + b)[1..] == a[1..] + b;
      CountConcat(a[1..], b, t, k);
    }
  }

  /** Splitting the table around row `i`. */
  lemma CountSplit(rows: seq<VoteRow>, i: nat, t: Target, k: VoteKind)
    requires i < |rows|
    ensures Count(rows, t, k)
            == Count(rows[..i], t, k) + Weight(rows[i], t, k) + Count(rows[i + 1..], t, k)
  {
    assert rows == rows[..i] + ([rows[i]] + rows[i + 1..]);
    CountConcat(rows[..i], [rows[i]] + rows[i + 1..], t, k);
    CountConcat([rows[i]], rows[i + 1..], t, k);
  }

  /** Deleting a row lowers the count of its own kind on its own target by one, and no other. */
  lemma CountRemove(rows: seq<VoteRow>, i: nat, t: Target, k: VoteKind)
    requires i < |rows|
    ensures Count(Remove(rows, i), t, k) + Weight(rows[i], t, k) == Count(rows, t, k)
  {
    CountSplit(rows, i, t, k);
    CountConcat(rows[..i], rows[i + 1..], t, k);
  }

  /** Changing the kind of a row moves it from one count to the other. */
  lemma CountRetype(rows: seq<VoteRow>, i: nat, kind: VoteKind, t: Target, k: VoteKind)
    requires i < |rows|
    ensures Count(Retype(rows, i, kind), t, k) + Weight(rows[i], t, k)
            == Count(rows, t, k) + Weight(rows[i].(kind := kind), t, k)
  {
    var r := Retype(rows, i, kind);
    CountSplit(rows, i, t, k);
    CountSplit(r, i, t, k);
    assert r[..i] == rows[..i];
    assert r[i + 1..] == rows[i + 1..];
  }

  /** Adding a row raises the count of its own kind on its own target by one, and no other. */
  lemma CountAppend(rows: seq<VoteRow>, row: VoteRow, t: Target, k: VoteKind)
    ensures Count(rows + [row], t, k) == Count(rows, t, k) + Weight(row, t, k)
  {
    CountConcat(rows, [row], t, k);
  }

  lemma UniqueRemove(rows: seq<VoteRow>, i: nat)
    requires i < |rows| && Unique(rows)
    ensures Unique(Remove(rows, i))
  {
    var r := Remove(rows, i);
    forall a, b | 0 <= a < b < |r|
      ensures !(r[a].voter == r[b].voter && r[a].target == r[b].target)
    {
      var a' := if a < i then a else a + 1;
      var b' := if b < i then b else b + 1;
      assert r[a] == rows[a'] && r[b] == rows[b'];
    }
  }

  lemma UniqueRetype(rows: seq<VoteRow>, i: nat, kind: VoteKind)
    requires i < |rows| && Unique(rows)
    ensures Unique(Retype(rows, i, kind))
  {
    var r := Retype(rows, i, kind);
    forall a, b | 0 <= a < b < |r|
      ensures !(r[a].voter == r[b].voter && r[a].target == r[b].target)
    {
      assert r[a].voter == rows[a].voter && r[a].target == rows[a].target;
      assert r[b].voter == rows[b].voter && r[b].target == rows[b].target;
    }
  }

  /** A row may be added only for a pair that has none: the `else` branch of the routes. */
  lemma UniqueAppend(rows: seq<VoteRow>, row: VoteRow)
    requires Unique(rows) && FindVote(rows, row.voter, row.target).None?
    ensures Unique(rows + [row])
  {
    var r := rows + [row];
    forall a, b | 0 <= a < b < |r|
      ensures !(r[a].voter == r[b].voter && r[a].target == r[b].target)
    {
      if b == |rows| {
        assert !Keyed(rows[a], row.voter, row.target);
      }
    }
  }

  /** `FindVote` returns exactly the first row of the pair. */
  lemma FindVoteIs(rows: seq<VoteRow>, voter: UserId, target: Target, m: nat)
    requires m < |rows| && Keyed(rows[m], voter, target)
    requires forall a :: 0 <= a < m ==> !Keyed(rows[a], voter, target)
    ensures FindVote(rows, voter, target) == Some(m)
  {
    assert FindVote(rows, voter, target).Some?;
  }

  /**
   * After deleting the row of (voter, target), other pairs keep their state; with the
   * unique constraint the pair itself has no vote left.
   */
  lemma StateAfterRemove(rows: seq<VoteRow>, i: nat, voter: UserId, target: Target)
    requires i < |rows|
    ensures !Keyed(rows[i], voter, target) ==>
              StateOf(Remove(rows, i), voter, target) == StateOf(rows, voter, target)
    ensures Unique(rows) && Keyed(rows[i], voter, target) ==>
              StateOf(Remove(rows, i), voter, target) == None
  {
    var r := Remove(rows, i);
    assert forall a :: 0 <= a < i ==> r[a] == rows[a];
    assert forall a :: i <= a < |r| ==> r[a] == rows[a + 1];
    if !Keyed(rows[i], voter, target) {
      match FindVote(rows, voter, target)
      case None =>
        assert FindVote(r, voter, target).None?;
      case Some(j) =>
        var j' := if j < i then j else j - 1;
        assert r[j'] == rows[j];
        FindVoteIs(r, voter, target, j');
    }
    if Unique(rows) && Keyed(rows[i], voter, target) {
      forall a | 0 <= a < |r| ensures !Keyed(r[a], voter, target) {
        var a' := if a < i then a else a + 1;
        assert r[a] == rows[a'];
      }
    }
  }

  /** Changing the kind of the first row of a pair changes that pair's state and no other. */
  lemma StateAfterRetype(rows: seq<VoteRow>, i: nat, kind: VoteKind, voter: UserId, target: Target)
    requires i < |rows|
    ensures !Keyed(rows[i], voter, target) ==>
              StateOf(Retype(rows, i, kind), voter, target) == StateOf(rows, voter, target)
    ensures FindVote(rows, voter, target) == Some(i) ==>
              StateOf(Retype(rows, i, kind), voter, target) == Some(kind)
  {
    var r := Retype(rows, i, kind);
    assert forall a :: 0 <= a < |r| ==> (Keyed(r[a], voter, target) <==> Keyed(rows[a], voter, target));
    match FindVote(rows, voter, target)
    case None =>
      assert FindVote(r, voter, target).None?;
    case Some(j) =>
      FindVoteIs(r, voter, target, j);
  }

  /** Appending a row for a pair without one gives that pair the row's kind, and no other pair changes. */
  lemma StateAfterAppend(rows: seq<VoteRow>, row: VoteRow, voter: UserId, target: Target)
    ensures !Keyed(row, voter, target) ==>
              StateOf(rows + [row], voter, target) == StateOf(rows, voter, target)
    ensures Keyed(row, voter, target) && FindVote(rows, voter, target).None? ==>
              StateOf(rows + [row], voter, target) == Some(row.kind)
  {
    var r := rows + [row];
    assert forall a :: 0 <= a < |rows| ==> r[a] == rows[a];
    match FindVote(rows, voter, target)
    case None =>
      if !Keyed(row, voter, target) {
        assert FindVote(r, voter, target).None?;
      } else {
        FindVoteIs(r, voter, target, |rows|);
      }
    case Some(j) =>
      FindVoteIs(r, voter, target, j);
  }
}

=== FILE: posts.dfy ===
/**
 * The `Post` and `Comment` models (models.py) and the record-level operations of the
 * post routes (posts/views.py): the author-or-admin guard on edit and delete, soft
 * delete, the moderator-or-admin pin toggle, and the `comment_count` bookkeeping of
 * comment creation and deletion. Timestamps are integers supplied by the caller.
 *
 * `updated_at` has `onupdate=datetime.utcnow` (models.py:272): every write that changes
 * a column of a post row also sets `updated_at` to the time of the write, here `now`. A
 * write of a value equal to the stored one changes nothing and emits no update.
 */
module Posts {
  import opened Common
  import opened Accounts

  datatype Post = Post(
    id: PostId,
    title: string,
    content: string,
    flair: string,
    tags: string,
    authorId: UserId,
    communityId: CommunityId,
    createdAt: int,
    updatedAt: int,
    upvotes: int,
    downvotes: int,
    views: int,
    commentCount: int,
    isDeleted: bool,
    isPinned: bool)

  datatype Comment = Comment(
    id: CommentId,
    content: string,
    authorId: UserId,
    postId: PostId,
    createdAt: int,
    upvotes: int,
    downvotes: int,
    isDeleted: bool)

  /** The default `length` of `get_preview_text`. */
  const PreviewLength: int := 150

  /** The suffix appended to a cut preview. */
  const Ellipsis: string := "..."

  /** `get_net_votes` of a post. */
  function PostNetVotes(p: Post): int {
    p.upvotes - p.downvotes
  }

  /** `get_net_votes` of a comment. */
  function CommentNetVotes(c: Comment): int {
    c.upvotes - c.downvotes
  }

  /**
   * Python's `s[:n]`: a non-negative `n` keeps the first `n` characters (all of them
   * when `n` is longer than `s`), a negative `n` drops the last `-n` characters.
   */
  function PrefixSlice(s: string, n: int): (r: string)
    ensures 0 <= n <= |s| ==> r == s[..n]
    ensures n > |s| ==> r == s
    ensures n < 0 ==> r == s[..if |s| + n < 0 then 0 else |s| + n]
  {
    if n >= 0 then s[..if n <= |s| then n else |s|]
    else s[..if |s| + n < 0 then 0 else |s| + n]
  }

  /**
   * `get_preview_text(length)`: empty content gives the empty string; content that fits
   * is returned unchanged; longer content is cut to `length` characters and gets "...".
   * A negative `length` is a Python slice from the end: every non-empty content is then
   * longer than `length`, loses its last `-length` characters and gets "...".
   */
  function PreviewText(content: string, length: int): (r: string)
    ensures |content| == 0 ==> r == ""
    ensures 0 < |content| <= length ==> r == content
    ensures 0 <= length < |content| ==> r == content[..length] + Ellipsis
    ensures 0 <= length ==> |r| <= length + |Ellipsis|
    ensures 0 < |content| && length < 0 ==> r == PrefixSlice(content, length) + Ellipsis
    ensures 0 < |content| && length < 0 ==> |r| >= |Ellipsis| && r[|r| - |Ellipsis|..] == Ellipsis
  {
    if |content| > 0 then
      PrefixSlice(content, length) + (if |content| > length then Ellipsis else "")
    else ""
  }

  /** A preview is always a prefix of the content, followed by "..." exactly when the content was cut. */
  lemma PreviewIsPrefix(content: string, length: int)
    requires |content| > 0 && length >= 0
    ensures var r := PreviewText(content, length);
            var cut := |content| > length;
            && (cut ==> |r| == length + 3 && r[..length] == content[..length] && r[length..] == "...")
            && (!cut ==> r == content)
  {
  }

  /**
   * `get_preview_text()` with its default length: content of at most 150 characters is
   * shown whole; longer content shows its first 150 characters and "...", 153 in all.
   */
  function DefaultPreview(content: string): (r: string)
    ensures |content| <= 150 ==> r == content
    ensures |content| > 150 ==> |r| == 153 && r[..150] == content[..150] && r[150..] == "..."
  {
    if |content| > 0 then PreviewIsPrefix(content, PreviewLength); PreviewText(content, PreviewLength)
    else PreviewText(content, PreviewLength)
  }

  /**
   * `increment_views`: the view counter goes up by one, the write stamps `updated_at`,
   * and nothing else changes.
   */
  function IncrementViews(p: Post, now: int): (r: Post)
    ensures r.views == p.views + 1 && r.updatedAt == now
    ensures r.(views := p.views, updatedAt := p.updatedAt) == p
  {
    p.(views := p.views + 1, updatedAt := now)
  }

  /** The guard of `edit_post`, `delete_post` and `delete_comment`: the author or an admin. */
  predicate CanModify(actor: User, authorId: UserId) {
    authorId == actor.id || IsAdmin(actor)
  }

  /**
   * `edit_post` after a valid form: title, content, flair and tags are replaced and the
   * edit time recorded. Anyone but the author or an admin is refused.
   */
  function EditPost(actor: User, p: Post, title: string, content: string, flair: string, tags: string, now: int)
    : (r: Result<Post, Denied>)
    ensures r.Err? <==> !(p.authorId == actor.id || actor.role == "admin")
    ensures r.Ok? ==>
      && r.value.title == title && r.value.content == content
      && r.value.flair == flair && r.value.tags == tags && r.value.updatedAt == now
    ensures r.Ok? ==> r.value.(title := p.title, content := p.content, flair := p.flair,
                               tags := p.tags, updatedAt := p.updatedAt) == p
  {
    if !CanModify(actor, p.authorId) then Err(Forbidden)
    else Ok(p.(title := title, content := content, flair := flair, tags := tags, updatedAt := now))
  }

  /**
   * `delete_post`: a soft delete by the author or an admin; the row stays. Deleting a
   * live post stamps `updated_at`; an already deleted post is written with the value it
   * has, so it comes back unchanged.
   */
  function DeletePost(actor: User, p: Post, now: int): (r: Result<Post, Denied>)
    ensures r.Err? <==> !(p.authorId == actor.id || actor.role == "admin")
    ensures r.Ok? ==> r.value.isDeleted
    ensures r.Ok? && !p.isDeleted ==>
              r.value.updatedAt == now && r.value.(isDeleted := p.isDeleted, updatedAt := p.updatedAt) == p
    ensures r.Ok? && p.isDeleted ==> r.value == p
  {
    if !CanModify(actor, p.authorId) then Err(Forbidden)
    else if p.isDeleted then Ok(p)
    else Ok(p.(isDeleted := true, updatedAt := now))
  }

  /** Deleting a post twice, at any two times, is the same as deleting it once. */
  lemma DeletePostIdempotent(actor: User, p: Post, now: int, later: int)
    requires DeletePost(actor, p, now).Ok?
    ensures DeletePost(actor, DeletePost(actor, p, now).value, later) == DeletePost(actor, p, now)
  {
  }

  /**
   * `pin_post`: the moderator of the post's community, or an admin, flips `is_pinned`,
   * and the write stamps `updated_at`. `moderatorId` is the nullable `moderator_id` of
   * that community: with no moderator only an admin passes.
   */
  function PinPost(actor: User, p: Post, moderatorId: Option<UserId>, now: int): (r: Result<Post, Denied>)
    ensures r.Err? <==> !(moderatorId == Some(actor.id) || actor.role == "admin")
    ensures moderatorId.None? ==> (r.Ok? <==> actor.role == "admin")
    ensures r.Ok? ==>
              && r.value.isPinned == !p.isPinned && r.value.updatedAt == now
              && r.value.(isPinned := p.isPinned, updatedAt := p.updatedAt) == p
  {
    if moderatorId != Some(actor.id) && !IsAdmin(actor) then Err(Forbidden)
    else Ok(p.(isPinned := !p.isPinned, updatedAt := now))
  }

  /** Pinning twice gives the post back, except for the time of the last write. */
  lemma PinTwiceIsIdentity(actor: User, p: Post, moderatorId: Option<UserId>, now: int, later: int)
    requires PinPost(actor, p, moderatorId, now).Ok?
    ensures PinPost(actor, PinPost(actor, p, moderatorId, now).value, moderatorId, later) == Ok(p.(updatedAt := later))
  {
  }

  /**
   * `create_comment` after a valid form: the new comment starts undeleted with no votes,
   * created at `now`, and the post's `comment_count` goes up by one, which stamps its
   * `updated_at`.
   */
  function CreateComment(p: Post, id: CommentId, author: UserId, content: string, now: int)
    : (r: (Post, Comment))
    ensures r.0.commentCount == p.commentCount + 1 && r.0.updatedAt == now
    ensures r.0.(commentCount := p.commentCount, updatedAt := p.updatedAt) == p
    ensures r.1.id == id && r.1.postId == p.id && r.1.authorId == author && r.1.content == content
    ensures r.1.createdAt == now && !r.1.isDeleted && r.1.upvotes == 0 && r.1.downvotes == 0
  {
    (p.(commentCount := p.commentCount + 1, updatedAt := now), Comment(id, content, author, p.id, now, 0, 0, false))
  }

  /**
   * `delete_comment`: by the comment's author or an admin; the comment is soft-deleted
   * and its post's `comment_count` goes down by one, also when the comment was already
   * deleted; that write stamps the post's `updated_at`.
   */
  function DeleteComment(actor: User, c: Comment, p: Post, now: int): (r: Result<(Comment, Post), Denied>)
    requires c.postId == p.id
    ensures r.Err? <==> !(c.authorId == actor.id || actor.role == "admin")
    ensures r.Ok? ==> r.value.0.isDeleted && r.value.0.(isDeleted := c.isDeleted) == c
    ensures r.Ok? ==>
      && r.value.1.commentCount == p.commentCount - 1 && r.value.1.updatedAt == now
      && r.value.1.(commentCount := p.commentCount, updatedAt := p.updatedAt) == p
  {
    if !CanModify(actor, c.authorId) then Err(Forbidden)
    else Ok((c.(isDeleted := true), p.(commentCount := p.commentCount - 1, updatedAt := now)))
  }

  /**
   * Only the vote routes move the net score: viewing, editing, deleting, pinning and
   * commenting leave a post's `get_net_votes` as it was, and a new comment starts at 0.
   */
  lemma NetVotesOnlyMoveByVoting(actor: User, p: Post, moderatorId: Option<UserId>, title: string, content: string,
                                 flair: string, tags: string, now: int, id: CommentId)
    ensures PostNetVotes(IncrementViews(p, now)) == PostNetVotes(p)
    ensures EditPost(actor, p, title, content, flair, tags, now).Ok? ==>
              PostNetVotes(EditPost(actor, p, title, content, flair, tags, now).value) == PostNetVotes(p)
    ensures DeletePost(actor, p, now).Ok? ==> PostNetVotes(DeletePost(actor, p, now).value) == PostNetVotes(p)
    ensures PinPost(actor, p, moderatorId, now).Ok? ==> PostNetVotes(PinPost(actor, p, moderatorId, now).value) == PostNetVotes(p)
    ensures var (p', c) := CreateComment(p, id, actor.id, content, now);
            PostNetVotes(p') == PostNetVotes(p) && CommentNetVotes(c) == 0
  {
  }

  /**
   * Creating a comment and deleting it gives the post's count back (only the time of the
   * last write differs), but deleting the same comment again lowers it once more:
   * `comment_count` is not the number of live comments.
   */
  lemma CommentCountDrift(actor: User, p: Post, id: CommentId, content: string, t1: int, t2: int, t3: int)
    ensures var (p1, c1) := CreateComment(p, id, actor.id, content, t1);
            var (c2, p2) := DeleteComment(actor, c1, p1, t2).value;
            var (c3, p3) := DeleteComment(actor, c2, p2, t3).value;
            && p2 == p.(updatedAt := t2)
            && c2.isDeleted && c3 == c2
            && p3.commentCount == p.commentCount - 1
  {
  }
}

=== FILE: ranking.dfy ===
/**
 * The ordering and paging rule shared by the community listing (subreddits/views.py)
 * and the JSON listing (api/views.py). The sort argument selects a key: `new` orders by
 * creation time, `top` by upvotes, anything else (the default is `hot`) by upvotes minus
 * downvotes, always descending. SQL fixes no order among equal keys, so a ranking is
 * specified as any descending permutation of its input; `SortByKey` is one of them, and
 * `RankingsAgreeOnKeys` shows that all of them agree on every position's key.
 */
module Ranking {
  import opened Posts

  datatype SortMode = New | Top | Hot

  /** Posts per page: `per_page=20` in both listings. */
  const PerPage: nat := 20

  /** The `sort` request argument; an absent one defaults to "hot", which falls into the last case. */
  function ModeOf(sort: string): (m: SortMode)
    ensures m == New <==> sort == "new"
    ensures m == Top <==> sort == "top"
  {
    if sort == "new" then New
    else if sort == "top" then Top
    else Hot
  }

  /** The column or expression of the `order_by(... .desc())`. */
  function Key(m: SortMode, p: Post): int {
    match m
    case New => p.createdAt
    case Top => p.upvotes
    case Hot => PostNetVotes(p)
  }

  /**
   * The three `order_by` branches of the listing routes: `new` orders by `created_at`,
   * `top` by `upvotes`, and every other value by `upvotes - downvotes`.
   */
  lemma KeyOfSort(sort: string, p: Post)
    ensures sort == "new" ==> Key(ModeOf(sort), p) == p.createdAt
    ensures sort == "top" ==> Key(ModeOf(sort), p) == p.upvotes
    ensures sort != "new" && sort != "top" ==> Key(ModeOf(sort), p) == p.upvotes - p.downvotes
  {
  }

  predicate SortedDesc(m: SortMode, s: seq<Post>) {
    forall i, j :: 0 <= i < j < |s| ==> Key(m, s[i]) >= Key(m, s[j])
  }

  /** `ranked` is an admissible answer of the ordered query over `input`. */
  predicate IsRanking(m: SortMode, input: seq<Post>, ranked: seq<Post>) {
    multiset(ranked) == multiset(input) && SortedDesc(m, ranked)
  }

  /** Put `p` in front of the first post whose key it is at least. */
  function InsertByKey(m: SortMode, p: Post, s: seq<Post>): (r: seq<Post>)
    requires SortedDesc(m, s)
    ensures multiset(r) == multiset(s) + multiset{p}
    ensures SortedDesc(m, r)
    ensures |r| == |s| + 1 && (r[0] == p || (|s| > 0 && r[0] == s[0]))
  {
    if |s| == 0 then [p]
    else if Key(m, p) >= Key(m, s[0]) then [p] + s
    else
      var rest := InsertByKey(m, p, s[1..]);
      assert s == [s[0]] + s[1..];
      assert Key(m, s[0]) >= Key(m, rest[0]);
      [s[0]] + rest
  }

  /** One admissible answer of the ordered query. */
  function SortByKey(m: SortMode, s: seq<Post>): (r: seq<Post>)
    ensures IsRanking(m, s, r)
  {
    if |s| == 0 then []
    else
      assert s == [s[0]] + s[1..];
      InsertByKey(m, s[0], SortByKey(m, s[1..]))
  }

  /** The keys of a sequence of posts, in order. */
  function Keys(m: SortMode, s: seq<Post>): (ks: seq<int>)
    ensures |ks| == |s|
    ensures forall i :: 0 <= i < |s| ==> ks[i] == Key(m, s[i])
  {
    if |s| == 0 then [] else [Key(m, s[0])] + Keys(m, s[1..])
  }

  lemma KeysConcat(m: SortMode, a: seq<Post>, b: seq<Post>)
    ensures Keys(m, a + b) == Keys(m, a) + Keys(m, b)
  {
  }

  lemma MultisetTail<T>(s: seq<T>)
    requires |s| > 0
    ensures multiset(s[1..]) == multiset(s) - multiset{s[0]}
  {
    assert s == [s[0]] + s[1..];
  }

  lemma MultisetWithout<T>(s: seq<T>, j: nat)
    requires j < |s|
    ensures multiset(s[..j] + s[j + 1..]) == multiset(s) - multiset{s[j]}
  {
    assert s == s[..j] + [s[j]] + s[j + 1..];
  }

  /** Taking out the post at `j` takes out its key. */
  lemma KeysWithout(m: SortMode, s: seq<Post>, j: nat)
    requires j < |s|
    ensures multiset(Keys(m, s)) == multiset(Keys(m, s[..j] + s[j + 1..])) + multiset{Key(m, s[j])}
  {
    assert s == s[..j] + [s[j]] + s[j + 1..];
    KeysConcat(m, s[..j] + [s[j]], s[j + 1..]);
    KeysConcat(m, s[..j], [s[j]]);
    KeysConcat(m, s[..j], s[j + 1..]);
  }

  /** Some index holds each element of a sequence. */
  lemma IndexOf(s: seq<Post>, p: Post) returns (j: nat)
    requires p in multiset(s)
    ensures j < |s| && s[j] == p
  {
    assert p in s;
    j :| 0 <= j < |s| && s[j] == p;
  }

  /** Permuting posts permutes their keys. */
  lemma {:induction false} KeysOfPermutation(m: SortMode, a: seq<Post>, b: seq<Post>)
    requires multiset(a) == multiset(b)
    ensures multiset(Keys(m, a)) == multiset(Keys(m, b))
    decreases |a|
  {
    if |a| == 0 {
      assert |b| == |multiset(b)| == 0;
    } else {
      var j := IndexOf(b, a[0]);
      var rest := b[..j] + b[j + 1..];
      RestIsPermutation(a, b, j);
      KeysOfPermutation(m, a[1..], rest);
      KeysWithout(m, b, j);
      KeysHead(m, a);
    }
  }

  /** Taking the head of `a` and its copy in `b` out of two permutations leaves permutations. */
  lemma RestIsPermutation(a: seq<Post>, b: seq<Post>, j: nat)
    requires multiset(a) == multiset(b) && |a| > 0 && j < |b| && b[j] == a[0]
    ensures multiset(a[1..]) == multiset(b[..j] + b[j + 1..])
  {
    MultisetTail(a);
    MultisetWithout(b, j);
  }

  /** The keys of a non-empty sequence are its head's key and the keys of its tail. */
  lemma KeysHead(m: SortMode, a: seq<Post>)
    requires |a| > 0
    ensures multiset(Keys(m, a)) == multiset(Keys(m, a[1..])) + multiset{Key(m, a[0])}
  {
    assert Keys(m, a) == [Key(m, a[0])] + Keys(m, a[1..]);
  }

  /** Descending integer sequences. */
  predicate Desc(x: seq<int>) {
    forall i, j :: 0 <= i < j < |x| ==> x[i] >= x[j]
  }

  /** The head of a descending sequence is its largest element. */
  lemma HeadIsMax(x: seq<int>, v: int)
    requires Desc(x) && v in multiset(x)
    ensures |x| > 0 && v <= x[0]
  {
    assert v in x;
    var i :| 0 <= i < |x| && x[i] == v;
  }

  /** Two descending sequences with the same elements start alike and continue with the same elements. */
  lemma SameHead(x: seq<int>, y: seq<int>)
    requires multiset(x) == multiset(y) && Desc(x) && Desc(y) && |x| > 0
    ensures |y| > 0 && x[0] == y[0] && multiset(x[1..]) == multiset(y[1..])
  {
    HeadIsMax(y, x[0]);
    HeadIsMax(x, y[0]);
    MultisetTail(x);
    MultisetTail(y);
  }

  /** Two descending integer sequences with the same elements are equal. */
  lemma {:induction false} SortedIntsUnique(x: seq<int>, y: seq<int>)
    requires multiset(x) == multiset(y) && Desc(x) && Desc(y)
    ensures x == y
    decreases |x|
  {
    if |x| == 0 {
      assert |y| == |multiset(y)| == 0;
    } else {
      SameHead(x, y);
      assert Desc(x[1..]) && Desc(y[1..]);
      SortedIntsUnique(x[1..], y[1..]);
      assert x == [x[0]] + x[1..];
      assert y == [y[0]] + y[1..];
    }
  }

  /**
   * The ranking is determined up to ties: any two admissible answers for the same input
   * carry the same key at every position, so they differ only by reordering posts with
   * equal keys.
   */
  lemma RankingsAgreeOnKeys(m: SortMode, input: seq<Post>, a: seq<Post>, b: seq<Post>)
    requires IsRanking(m, input, a) && IsRanking(m, input, b)
    ensures |a| == |b|
    ensures forall i :: 0 <= i < |a| ==> Key(m, a[i]) == Key(m, b[i])
  {
    KeysOfPermutation(m, a, b);
    assert Desc(Keys(m, a)) && Desc(Keys(m, b));
    SortedIntsUnique(Keys(m, a), Keys(m, b));
  }

  /** The first index of page `page` (pages count from 1), clipped to the listing. */
  function PageStart(page: nat, n: nat): nat
    requires page >= 1
  {
    if (page - 1) * PerPage <= n then (page - 1) * PerPage else n
  }

  /** `paginate(page=page, per_page=20).items` for an in-range or empty page. */
  function Page(s: seq<Post>, page: nat): (r: seq<Post>)
    requires page >= 1
    ensures |r| <= PerPage
    ensures (page - 1) * PerPage <= |s| ==>
              |r| == (if |s| - (page - 1) * PerPage < PerPage then |s| - (page - 1) * PerPage else PerPage)
    ensures |r| > 0 ==> (page - 1) * PerPage + |r| <= |s|
    ensures forall i :: 0 <= i < |r| ==> r[i] == s[(page - 1) * PerPage + i]
  {
    var start := PageStart(page, |s|);
    var end := if start + PerPage <= |s| then start + PerPage else |s|;
    s[start..end]
  }

  /** Every post of the listing shows up on exactly one page, at the position its index gives. */
  lemma PagesCoverListing(s: seq<Post>, i: nat)
    requires i < |s|
    ensures var page := i / PerPage + 1;
            var pos := i % PerPage;
            pos < |Page(s, page)| && Page(s, page)[pos] == s[i]
  {
    var page := i / PerPage + 1;
    assert (page - 1) * PerPage + i % PerPage == i;
  }

  /** A page of a descending listing is descending. */
  lemma PageOfRankingIsSorted(m: SortMode, s: seq<Post>, page: nat)
    requires page >= 1 && SortedDesc(m, s)
    ensures SortedDesc(m, Page(s, page))
  {
  }

  /**
   * `paginate(...).pages`: no pages for an empty listing, otherwise the number of pages
   * of 20 needed to hold `total` posts.
   */
  function PageCount(total: nat): (pages: nat)
    ensures total == 0 ==> pages == 0
    ensures total > 0 ==> (pages - 1) * PerPage < total <= pages * PerPage
  {
    if total == 0 then 0 else (total + PerPage - 1) / PerPage
  }
}

=== FILE: timesince.dfy ===
/**
 * The `timesince` template filter of app.py. It takes the time elapsed since an event,
 * normalised the way Python's `timedelta` is (whole days, then seconds in [0, 86400)),
 * and picks one coarse bucket: years, months, days, hours, minutes or "just now".
 * Timestamps are microsecond counts; the current time is a parameter.
 */
module TimeSince {
  import opened Common

  const MicrosPerSecond: int := 1_000_000
  const SecondsPerDay: int := 86400

  /** A normalised `timedelta`, without its microseconds (the filter never reads them). */
  datatype Delta = Delta(days: int, seconds: int)

  predicate Normal(d: Delta) {
    0 <= d.seconds < SecondsPerDay
  }

  /** The whole seconds of a delta, counted from day zero. */
  function TotalSeconds(d: Delta): int {
    d.days * SecondsPerDay + d.seconds
  }

  /**
   * `now - dt`: whole days rounded towards minus infinity, then the whole seconds left
   * over. So the delta is the unique normal one whose whole seconds bracket the
   * elapsed microseconds from below.
   */
  function Elapsed(now: int, at: int): (d: Delta)
    ensures Normal(d)
    ensures TotalSeconds(d) * MicrosPerSecond <= now - at < (TotalSeconds(d) + 1) * MicrosPerSecond
  {
    var micros := now - at;
    var seconds := micros / MicrosPerSecond;
    Delta(seconds / SecondsPerDay, seconds % SecondsPerDay)
  }

  /** The text the filter shows, with its number; the Russian wording is not modelled. */
  datatype Bucket =
    | Blank
    | YearsAgo(n: int)
    | MonthsAgo(n: int)
    | DaysAgo(n: int)
    | HoursAgo(n: int)
    | MinutesAgo(n: int)
    | JustNow

  /**
   * The branch chain of the filter. The day count decides alone whenever it is positive,
   * so the seconds matter only for `days <= 0`, a future event included.
   */
  function Classify(d: Delta): (b: Bucket)
    requires Normal(d)
    ensures !b.Blank?
    ensures b.YearsAgo? <==> d.days > 365
    ensures b.YearsAgo? ==> b.n >= 1 && b.n * 365 <= d.days < (b.n + 1) * 365
    ensures b.MonthsAgo? <==> 30 < d.days <= 365
    ensures b.MonthsAgo? ==> 1 <= b.n <= 12 && b.n * 30 <= d.days < (b.n + 1) * 30
    ensures b.DaysAgo? <==> 0 < d.days <= 30
    ensures b.DaysAgo? ==> b.n == d.days
    ensures b.HoursAgo? <==> d.days <= 0 && d.seconds > 3600
    ensures b.HoursAgo? ==> 1 <= b.n <= 23 && b.n * 3600 <= d.seconds < (b.n + 1) * 3600
    ensures b.MinutesAgo? <==> d.days <= 0 && 60 < d.seconds <= 3600
    ensures b.MinutesAgo? ==> 1 <= b.n <= 60 && b.n * 60 <= d.seconds < (b.n + 1) * 60
    ensures b.JustNow? <==> d.days <= 0 && d.seconds <= 60
  {
    if d.days > 365 then YearsAgo(d.days / 365)
    else if d.days > 30 then MonthsAgo(d.days / 30)
    else if d.days > 0 then DaysAgo(d.days)
    else if d.seconds > 3600 then HoursAgo(d.seconds / 3600)
    else if d.seconds > 60 then MinutesAgo(d.seconds / 60)
    else JustNow
  }

  /** `timesince_filter(dt)`: a missing timestamp gives the empty text. */
  function Filter(dt: Option<int>, now: int): (b: Bucket)
    ensures b.Blank? <==> dt.None?
    ensures dt.Some? ==> b == Classify(Elapsed(now, dt.value))
  {
    match dt
    case None => Blank
    case Some(t) => Classify(Elapsed(now, t))
  }

  /** How coarse a bucket is: later buckets are for longer times. */
  function Coarseness(b: Bucket): nat {
    match b
    case Blank => 0
    case JustNow => 0
    case MinutesAgo(_) => 1
    case HoursAgo(_) => 2
    case DaysAgo(_) => 3
    case MonthsAgo(_) => 4
    case YearsAgo(_) => 5
  }

  /**
   * For past events the filter is monotone: a longer elapsed time never lands in a finer
   * bucket, and within one bucket never shows a smaller number.
   */
  lemma ClassifyMonotone(d1: Delta, d2: Delta)
    requires Normal(d1) && Normal(d2) && d1.days >= 0
    requires TotalSeconds(d1) <= TotalSeconds(d2)
    ensures var b1 := Classify(d1);
            var b2 := Classify(d2);
            Coarseness(b1) <= Coarseness(b2)
            && (Coarseness(b1) == Coarseness(b2) && !b1.JustNow? ==> b1.n <= b2.n)
  {
    assert d1.days <= d2.days;
    if d1.days == d2.days {
      assert d1.seconds <= d2.seconds;
    }
  }

  /** Exactly 365 days is still shown in months, as 12; one more day is the first year. */
  lemma YearBoundary(seconds: int)
    requires 0 <= seconds < SecondsPerDay
    ensures Classify(Delta(365, seconds)) == MonthsAgo(12)
    ensures Classify(Delta(366, seconds)) == YearsAgo(1)
  {
  }

  /**
   * An event less than a second in the future normalises to minus one day plus 86399
   * seconds, and is shown as 23 hours ago.
   */
  lemma NearFutureIsHoursAgo(now: int, at: int)
    requires now < at <= now + MicrosPerSecond
    ensures Elapsed(now, at) == Delta(-1, SecondsPerDay - 1)
    ensures Filter(Some(at), now) == HoursAgo(23)
  {
  }
}

=== FILE: votes.dfy ===
/**
 * The vote routes of posts/views.py (`upvote_post`, `downvote_post`, `upvote_comment`,
 * `downvote_comment`): a request looks up the voter's row for the post or comment,
 * then either creates it, flips it or deletes it, moves the target's `upvotes` and
 * `downvotes` counters and moves the karma of the target's AUTHOR (not the voter).
 *
 * The table followed here is the one the code has. Retracting a vote (pressing the
 * same button twice) deletes the row and lowers the counter but leaves karma alone,
 * so karma is not the net score of an author's posts and comments.
 */
module Votes {
  import opened Common
  import opened Ledger

  /** The counters and the author of a post or a comment. */
  datatype Votable = Votable(upvotes: int, downvotes: int, author: UserId)

  /** The part of the database a vote reads and writes. */
  datatype VoteDb = VoteDb(rows: seq<VoteRow>, votables: map<Target, Votable>, karma: map<UserId, int>)

  /** `get_or_404` of the route: the post or comment does not exist. */
  datatype VoteError = NotFound

  /** The foreign key `author_id`: every post and comment has an author row (with a karma column). */
  predicate AuthorsKnown(db: VoteDb) {
    forall t :: t in db.votables ==> db.votables[t].author in db.karma
  }

  /** One cell of the transition table: the next ledger state and the three deltas. */
  datatype Effect = Effect(next: Option<VoteKind>, dUp: int, dDown: int, dKarma: int)

  /** +1 for the upvote button, -1 for the downvote button. */
  function Sign(k: VoteKind): int {
    match k
    case Upvote => 1
    case Downvote => -1
  }

  /** How many rows of kind `k` a ledger state stands for. */
  function Has(s: Option<VoteKind>, k: VoteKind): nat {
    if s == Some(k) then 1 else 0
  }

  /** The counter of kind `k`. */
  function Counter(v: Votable, k: VoteKind): int {
    match k
    case Upvote => v.upvotes
    case Downvote => v.downvotes
  }

  /** `get_net_votes` of posts and comments. */
  function NetVotes(v: Votable): int {
    v.upvotes - v.downvotes
  }

  /**
   * The transition table of the vote routes, cell by cell. Its contract says what
   * the cells mean: each counter moves by the change in the number of rows of its
   * kind, the same button twice retracts, and karma moves by one for a new vote,
   * by two for a switch and not at all for a retraction.
   */
  function Transition(state: Option<VoteKind>, action: VoteKind): (e: Effect)
    ensures e.next == (if state == Some(action) then None else Some(action))
    ensures e.dUp == Has(e.next, Upvote) - Has(state, Upvote)
    ensures e.dDown == Has(e.next, Downvote) - Has(state, Downvote)
    ensures e.dKarma == (if state == Some(action) then 0
                         else if state == None then Sign(action)
                         else 2 * Sign(action))
  {
    match (state, action)
    case (None, Upvote) => Effect(Some(Upvote), 1, 0, 1)
    case (Some(Upvote), Upvote) => Effect(None, -1, 0, 0)
    case (Some(Downvote), Upvote) => Effect(Some(Upvote), 1, -1, 2)
    case (None, Downvote) => Effect(Some(Downvote), 0, 1, -1)
    case (Some(Downvote), Downvote) => Effect(None, 0, -1, 0)
    case (Some(Upvote), Downvote) => Effect(Some(Downvote), -1, 1, -2)
  }

  /** `post.upvotes += d` or `post.downvotes += d`. */
  function Bump(v: Votable, k: VoteKind, d: int): Votable {
    match k
    case Upvote => v.(upvotes := v.upvotes + d)
    case Downvote => v.(downvotes := v.downvotes + d)
  }

  /** The votable after applying an effect's counter deltas. */
  function Moved(v: Votable, e: Effect): Votable {
    v.(upvotes := v.upvotes + e.dUp, downvotes := v.downvotes + e.dDown)
  }

  /**
   * One vote request by `voter` on `target`, branch for branch as the routes do it.
   * The result follows the transition table for the state the lookup finds; only the
   * target's counters and only its author's karma change.
   */
  function Vote(db: VoteDb, voter: UserId, target: Target, action: VoteKind): (r: Result<VoteDb, VoteError>)
    requires AuthorsKnown(db)
    ensures r.Err? <==> target !in db.votables
    ensures r.Ok? ==>
      var v := db.votables[target];
      var e := Transition(StateOf(db.rows, voter, target), action);
      && r.value.votables == db.votables[target := Moved(v, e)]
      && r.value.karma == db.karma[v.author := db.karma[v.author] + e.dKarma]
      && AuthorsKnown(r.value)
  {
    if target !in db.votables then Err(NotFound)
    else
      var v := db.votables[target];
      var author := v.author;
      match FindVote(db.rows, voter, target)
      case Some(i) =>
        if db.rows[i].kind == action then
          Ok(db.(rows := Remove(db.rows, i),
                 votables := db.votables[target := Bump(v, action, -1)]))
        else
          Ok(db.(rows := Retype(db.rows, i, action),
                 votables := db.votables[target := Bump(Bump(v, Opposite(action), -1), action, 1)],
                 karma := db.karma[author := db.karma[author] + 2 * Sign(action)]))
      case None =>
        Ok(db.(rows := db.rows + [VoteRow(voter, target, action)],
               votables := db.votables[target := Bump(v, action, 1)],
               karma := db.karma[author := db.karma[author] + Sign(action)]))
  }

  /** `upvote_post` / `downvote_post`: a vote on a post moves no comment's counters. */
  function VotePost(db: VoteDb, voter: UserId, post: PostId, action: VoteKind): (r: Result<VoteDb, VoteError>)
    requires AuthorsKnown(db)
    ensures r.Err? <==> PostTarget(post) !in db.votables
    ensures r.Ok? ==> forall t :: t in db.votables && t != PostTarget(post) ==>
              t in r.value.votables && r.value.votables[t] == db.votables[t]
    ensures r.Ok? ==> forall c :: CommentTarget(c) in db.votables ==>
              r.value.votables[CommentTarget(c)] == db.votables[CommentTarget(c)]
  {
    Vote(db, voter, PostTarget(post), action)
  }

  /** `upvote_comment` / `downvote_comment`: the same table on a comment; no post's counters move. */
  function VoteComment(db: VoteDb, voter: UserId, comment: CommentId, action: VoteKind): (r: Result<VoteDb, VoteError>)
    requires AuthorsKnown(db)
    ensures r.Err? <==> CommentTarget(comment) !in db.votables
    ensures r.Ok? ==> forall t :: t in db.votables && t != CommentTarget(comment) ==>
              t in r.value.votables && r.value.votables[t] == db.votables[t]
    ensures r.Ok? ==> forall p :: PostTarget(p) in db.votables ==>
              r.value.votables[PostTarget(p)] == db.votables[PostTarget(p)]
  {
    Vote(db, voter, CommentTarget(comment), action)
  }

  /** How far a counter is from the number of ledger rows of its kind (seeded counters have no rows). */
  function Offset(db: VoteDb, t: Target, k: VoteKind): int
    requires t in db.votables
  {
    Counter(db.votables[t], k) - Count(db.rows, t, k)
  }

  /** The rows of the target move exactly as the table's ledger states say. */
  lemma LedgerMovesWithTable(db: VoteDb, voter: UserId, target: Target, action: VoteKind, k: VoteKind)
    requires AuthorsKnown(db) && Vote(db, voter, target, action).Ok?
    ensures var e := Transition(StateOf(db.rows, voter, target), action);
            Count(Vote(db, voter, target, action).value.rows, target, k)
            == Count(db.rows, target, k) + Has(e.next, k) - Has(StateOf(db.rows, voter, target), k)
  {
    var rows := db.rows;
    match FindVote(rows, voter, target)
    case Some(i) =>
      if rows[i].kind == action {
        CountRemove(rows, i, target, k);
      } else {
        CountRetype(rows, i, action, target, k);
      }
    case None =>
      CountAppend(rows, VoteRow(voter, target, action), target, k);
  }

  /** The rows of every other target are untouched in number. */
  lemma LedgerElsewhereUnchanged(db: VoteDb, voter: UserId, target: Target, action: VoteKind, t: Target, k: VoteKind)
    requires AuthorsKnown(db) && Vote(db, voter, target, action).Ok? && t != target
    ensures Count(Vote(db, voter, target, action).value.rows, t, k) == Count(db.rows, t, k)
  {
    var rows := db.rows;
    match FindVote(rows, voter, target)
    case Some(i) =>
      if rows[i].kind == action {
        CountRemove(rows, i, t, k);
      } else {
        CountRetype(rows, i, action, t, k);
      }
    case None =>
      CountAppend(rows, VoteRow(voter, target, action), t, k);
  }

  /**
   * The key invariant: every transition changes `upvotes` and `downvotes` by exactly the
   * change in the number of up and down rows, on every target. So whatever offset a
   * counter has from the ledger (seeded counters start with no rows at all) is kept.
   */
  lemma VotePreservesOffsets(db: VoteDb, voter: UserId, target: Target, action: VoteKind)
    requires AuthorsKnown(db) && Vote(db, voter, target, action).Ok?
    ensures var r := Vote(db, voter, target, action).value;
            && r.votables.Keys == db.votables.Keys
            && forall t, k :: t in db.votables ==> Offset(r, t, k) == Offset(db, t, k)
  {
    var r := Vote(db, voter, target, action).value;
    forall t, k | t in db.votables ensures Offset(r, t, k) == Offset(db, t, k) {
      if t == target {
        LedgerMovesWithTable(db, voter, target, action, k);
      } else {
        LedgerElsewhereUnchanged(db, voter, target, action, t, k);
      }
    }
  }

  /** The unique constraint holds after every transition. */
  lemma VoteKeepsUnique(db: VoteDb, voter: UserId, target: Target, action: VoteKind)
    requires AuthorsKnown(db) && Unique(db.rows) && Vote(db, voter, target, action).Ok?
    ensures Unique(Vote(db, voter, target, action).value.rows)
  {
    match FindVote(db.rows, voter, target)
    case Some(i) =>
      if db.rows[i].kind == action {
        UniqueRemove(db.rows, i);
      } else {
        UniqueRetype(db.rows, i, action);
      }
    case None =>
      UniqueAppend(db.rows, VoteRow(voter, target, action));
  }

  /**
   * Under the unique constraint the voter's ledger state becomes the table's next state,
   * and every other (voter, target) pair keeps its state.
   */
  lemma VoteNextState(db: VoteDb, voter: UserId, target: Target, action: VoteKind, u: UserId, t: Target)
    requires AuthorsKnown(db) && Unique(db.rows) && Vote(db, voter, target, action).Ok?
    ensures var r := Vote(db, voter, target, action).value;
            StateOf(r.rows, u, t)
            == if u == voter && t == target
               then Transition(StateOf(db.rows, voter, target), action).next
               else StateOf(db.rows, u, t)
  {
    match FindVote(db.rows, voter, target)
    case Some(i) =>
      if db.rows[i].kind == action {
        StateAfterRemove(db.rows, i, u, t);
      } else {
        StateAfterRetype(db.rows, i, action, u, t);
      }
    case None =>
      StateAfterAppend(db.rows, VoteRow(voter, target, action), u, t);
  }

  /**
   * Karma is not the net score: a new vote or a switch moves the author's karma exactly
   * as much as the target's net votes, but a retraction moves the net votes back by one
   * and leaves karma where it was.
   */
  lemma KarmaFollowsNetVotesExceptRetraction(db: VoteDb, voter: UserId, target: Target, action: VoteKind)
    requires AuthorsKnown(db) && Vote(db, voter, target, action).Ok?
    ensures var r := Vote(db, voter, target, action).value;
            var author := db.votables[target].author;
            var dNet := NetVotes(r.votables[target]) - NetVotes(db.votables[target]);
            var dKarma := r.karma[author] - db.karma[author];
            && (StateOf(db.rows, voter, target) != Some(action) ==> dKarma == dNet)
            && (StateOf(db.rows, voter, target) == Some(action) ==> dKarma == 0 && dNet == -Sign(action))
  {
  }

  /** A stream of vote requests; a request on a missing post or comment is answered 404 and changes nothing. */
  datatype Request = Request(voter: UserId, target: Target, action: VoteKind)

  function Replay(db: VoteDb, reqs: seq<Request>): (r: VoteDb)
    requires AuthorsKnown(db)
    ensures AuthorsKnown(r) && r.votables.Keys == db.votables.Keys
    decreases |reqs|
  {
    if |reqs| == 0 then db
    else
      var q := reqs[0];
      match Vote(db, q.voter, q.target, q.action)
      case Err(_) => Replay(db, reqs[1..])
      case Ok(next) => Replay(next, reqs[1..])
  }

  /**
   * Over any sequence of requests, the unique constraint is kept and every counter keeps
   * its offset from the ledger; in particular counters that match the ledger keep matching.
   */
  lemma {:induction false} ReplayPreservesInvariants(db: VoteDb, reqs: seq<Request>)
    requires AuthorsKnown(db) && Unique(db.rows)
    ensures var r := Replay(db, reqs);
            && Unique(r.rows)
            && forall t, k :: t in db.votables ==> Offset(r, t, k) == Offset(db, t, k)
    decreases |reqs|
  {
    if |reqs| > 0 {
      var q := reqs[0];
      match Vote(db, q.voter, q.target, q.action)
      case Err(_) =>
        ReplayPreservesInvariants(db, reqs[1..]);
      case Ok(next) =>
        VotePreservesOffsets(db, q.voter, q.target, q.action);
        VoteKeepsUnique(db, q.voter, q.target, q.action);
        ReplayPreservesInvariants(next, reqs[1..]);
    }
  }

  /**
   * Counters that start at or above the ledger (the seeding script writes counters with
   * no rows) never go negative, whatever requests follow.
   */
  lemma CountersStayNonNegative(db: VoteDb, reqs: seq<Request>, t: Target, k: VoteKind)
    requires AuthorsKnown(db) && Unique(db.rows) && t in db.votables
    requires Offset(db, t, k) >= 0
    ensures Counter(Replay(db, reqs).votables[t], k) >= 0
  {
    ReplayPreservesInvariants(db, reqs);
  }

  /**
   * Pressing the same button twice. From no vote, or from a vote of that same kind, the
   * counters come back where they were but the author's karma ends `Sign(action)` away
   * (and from no vote the ledger itself comes back too). From the opposite vote, the
   * voter ends with no vote, the opposite counter one lower and karma two steps away.
   */
  lemma PressTwice(db: VoteDb, voter: UserId, target: Target, action: VoteKind)
    requires AuthorsKnown(db) && Unique(db.rows) && target in db.votables
    ensures Vote(db, voter, target, action).Ok?
    ensures var once := Vote(db, voter, target, action).value;
            var twice := Vote(once, voter, target, action).value;
            var v := db.votables[target];
            var s := StateOf(db.rows, voter, target);
            && twice.votables[target].author == v.author
            && (s != Some(Opposite(action)) ==>
                  && twice.votables == db.votables
                  && twice.karma == db.karma[v.author := db.karma[v.author] + Sign(action)])
            && (s == None ==> twice.rows == db.rows)
            && (s == Some(Opposite(action)) ==>
                  && StateOf(twice.rows, voter, target) == None
                  && twice.votables == db.votables[target := Bump(v, Opposite(action), -1)]
                  && twice.karma == db.karma[v.author := db.karma[v.author] + 2 * Sign(action)])
  {
    TwoPresses(db, voter, target, action);
    var v := db.votables[target];
    var s := StateOf(db.rows, voter, target);
    TwoCells(v, s, action);
    if s != Some(Opposite(action)) {
      assert db.votables[target := v] == db.votables;
    }
    if s == None {
      PressTwiceFromNoVote(db, voter, target, action);
    }
  }

  /** Two cells of the table for the same button, composed on one votable. */
  lemma TwoCells(v: Votable, s: Option<VoteKind>, action: VoteKind)
    ensures var e1 := Transition(s, action);
            var e2 := Transition(e1.next, action);
            && (s != Some(Opposite(action)) ==>
                  Moved(Moved(v, e1), e2) == v && e1.dKarma + e2.dKarma == Sign(action))
            && (s == Some(Opposite(action)) ==>
                  && e2.next == None
                  && Moved(Moved(v, e1), e2) == Bump(v, Opposite(action), -1)
                  && e1.dKarma + e2.dKarma == 2 * Sign(action))
  {
  }

  /** One press, packaged: its result keeps the invariants and moves the target by one cell of the table. */
  lemma OnePress(db: VoteDb, voter: UserId, target: Target, action: VoteKind)
    requires AuthorsKnown(db) && Unique(db.rows) && target in db.votables
    ensures Vote(db, voter, target, action).Ok?
    ensures var once := Vote(db, voter, target, action).value;
            var v := db.votables[target];
            var e := Transition(StateOf(db.rows, voter, target), action);
            && AuthorsKnown(once) && Unique(once.rows) && target in once.votables
            && once.votables == db.votables[target := Moved(v, e)]
            && once.karma == db.karma[v.author := db.karma[v.author] + e.dKarma]
            && StateOf(once.rows, voter, target) == e.next
  {
    VoteNextState(db, voter, target, action, voter, target);
    VoteKeepsUnique(db, voter, target, action);
  }

  /** Two presses compose two cells of the table. */
  lemma TwoPresses(db: VoteDb, voter: UserId, target: Target, action: VoteKind)
    requires AuthorsKnown(db) && Unique(db.rows) && target in db.votables
    ensures Vote(db, voter, target, action).Ok?
    ensures var once := Vote(db, voter, target, action).value;
            var twice := Vote(once, voter, target, action).value;
            var v := db.votables[target];
            var e1 := Transition(StateOf(db.rows, voter, target), action);
            var e2 := Transition(e1.next, action);
            && twice.votables == db.votables[target := Moved(Moved(v, e1), e2)]
            && twice.karma == db.karma[v.author := db.karma[v.author] + e1.dKarma + e2.dKarma]
            && StateOf(twice.rows, voter, target) == e2.next
  {
    var v := db.votables[target];
    OnePress(db, voter, target, action);
    var once := Vote(db, voter, target, action).value;
    OnePress(once, voter, target, action);
    assert once.votables[target] == Moved(v, Transition(StateOf(db.rows, voter, target), action));
  }

  /** From no vote, the second press deletes exactly the row the first one appended. */
  lemma PressTwiceFromNoVote(db: VoteDb, voter: UserId, target: Target, action: VoteKind)
    requires AuthorsKnown(db) && target in db.votables
    requires FindVote(db.rows, voter, target).None?
    ensures Vote(Vote(db, voter, target, action).value, voter, target, action).value.rows == db.rows
  {
    var once := Vote(db, voter, target, action).value;
    assert once.rows == db.rows + [VoteRow(voter, target, action)];
    assert forall a :: 0 <= a < |db.rows| ==> once.rows[a] == db.rows[a];
    FindVoteIs(once.rows, voter, target, |db.rows|);
    assert Remove(once.rows, |db.rows|) == db.rows;
  }

  /**
   * The scenario of a fresh post at (0, 0): upvote gives (1, 0) and karma 1, downvote
   * switches to (0, 1) and karma -1, downvote again retracts to (0, 0) and karma stays
   * at -1 (a table in which retraction undoes karma would give 0 here).
   */
  lemma RetractionKeepsKarmaScenario(voter: UserId, author: UserId, post: PostId)
    ensures var t := PostTarget(post);
            var db0 := VoteDb([], map[t := Votable(0, 0, author)], map[author := 0]);
            var db1 := Vote(db0, voter, t, Upvote).value;
            var db2 := Vote(db1, voter, t, Downvote).value;
            var db3 := Vote(db2, voter, t, Downvote).value;
            && db1.votables[t] == Votable(1, 0, author) && db1.karma[author] == 1
            && db2.votables[t] == Votable(0, 1, author) && db2.karma[author] == -1
            && db3.votables[t] == Votable(0, 0, author) && db3.karma[author] == -1
            && db3.rows == []
  {
    var t := PostTarget(post);
    var db0 := VoteDb([], map[t := Votable(0, 0, author)], map[author := 0]);
    var db1 := Vote(db0, voter, t, Upvote).value;
    assert db1.rows == [VoteRow(voter, t, Upvote)];
    assert FindVote(db1.rows, voter, t) == Some(0);
    var db2 := Vote(db1, voter, t, Downvote).value;
    assert db2.rows == [VoteRow(voter, t, Downvote)];
    assert FindVote(db2.rows, voter, t) == Some(0);
  }
}
